=== FILE: README.md ===
# LinguaLift session logic in Dafny

LinguaLift is a React front end for learning English vocabulary. Most of it is
markup. Its logic lives in a few small state reducers inside components, and
this project models those reducers as pure functions over immutable state
records:

- the **placement test** (`PlacementTestModal`): four fixed multiple-choice
  questions, the intro → question → analyzing → result flow, the running score
  and the staircase that turns the score into a CEFR tier label;
- the **vocabulary mastery tracker** (`VideoLessonView`): five quiz tasks, at
  most one expanded, wrong-option marks and shake marks, auto-advance to the
  next open task, a simulated playback clock that picks the subtitle, and the
  success view;
- the **five-word demo** (`VocabularyDemoModal`): a capped click counter with
  an active-word guard, and the action button;
- the **dashboard** (`Dashboard`): the lesson generator, the daily challenge,
  the open video lesson and the "words learned" figure;
- the **application shell** (`App.tsx`): the page shown, the open modals, the
  stored level and the feature that led to sign-up.

Each component has a state datatype and one function per user action or
timer. Every component except the vocabulary demo also has an `Event` type,
an `Enabled` predicate and an `Apply`/`Run` pair; the demo's `Run` takes word
indices and skips those outside the list. `Enabled`
says which controls are on screen, and `Apply` ignores any event that is not
enabled. Timers are explicit: a scheduled timer is part of the state, and its
firing is an event that is enabled only while it is scheduled. The
placement modal counts pending analyzing timers. The application shell
queues the sign-in page's pending sign-ins, each with the level its callback
read. The tracker keeps a
multiset of `AutoExpand(id)` and `ShakeClear(id)` timers. The playback
interval is a `TickEv` that is enabled while playing. Invariants are proved
for every event sequence.

Files: `optional.dfy` (the `Option` type), `cefr.dfy` (the CEFR tiers of
`types.ts`), `placement.dfy`, `mastery.dfy`, `vocab_demo.dfy`, `dashboard.dfy`
and `app.dfy`. The dashboard embeds a `Mastery.View` for the open lesson.

Playback position is counted in integer ticks of 0.2 units, so the 100-unit
video lasts 500 ticks.

## Model

| member | source | states |
|---|---|---|
| Cefr.Parse | types.ts:21-27 | a string is recognised as a tier exactly when it is one of the five enum values, and the tier recognised has that string as its label |
| Cefr.ParseLabel | types.ts:21-27 | the labels are pairwise distinct, so every tier is recovered from its label |
| Placement.ColumnsMatchTable | components/PlacementTestModal.tsx:13-42 | the four questions have correct options 0, 1, 2, 1 and four options each |
| Placement.CountOfFour | components/PlacementTestModal.tsx:54-60 | a full answer sheet scores one point for each position whose option is that question's correct index |
| Placement.CorrectCount | components/PlacementTestModal.tsx:13-42 | the number of answers matching the correct option of the question at the same position, never more than the number of answers |
| Placement.Tier | components/PlacementTestModal.tsx:71-81 | the tier rank is the score clamped to [1, 4], so A1 is never produced |
| Placement.CalculatedLevel | components/PlacementTestModal.tsx:71-81 | the reported level is always a CEFR enum value, never the A1 label, and parses back to the score's tier |
| Placement.TierMonotone | components/PlacementTestModal.tsx:77-80 | a higher score never gives a lower tier |
| Placement.TierTable | components/PlacementTestModal.tsx:77-80 | scores 0 and 1 give "A2 (Elementary)", 2 gives "B1 (Intermediate)", 3 gives "B2 (Upper Intermediate)", 4 gives "C1 (Advanced)" |
| Placement.Start | components/PlacementTestModal.tsx:52 | start shows the questions and keeps the index, answers, score and pending timers |
| Placement.Answer | components/PlacementTestModal.tsx:54-69 | the score rises by one exactly when the option is the question's correct index and is otherwise unchanged; the option is appended to the answers; before the last question the index advances by one, on the last it stays and the step becomes analyzing with one more timer scheduled; the index stays within the question table |
| Placement.AnalyzeDone | components/PlacementTestModal.tsx:67 | the analyzing timer sets the result step from whatever step it finds and consumes itself, leaving answers and score alone |
| Placement.Finish | components/PlacementTestModal.tsx:83-87 | finishing reports the tier label of the current score, always a CEFR enum value, and leaves the session as it is |
| Placement.ResetAsWritten | components/PlacementTestModal.tsx:89-95 | closing the modal returns to intro with index 0, no answers and score 0, but a scheduled analyzing timer stays scheduled |
| Placement.Reset | components/PlacementTestModal.tsx:89-95 | closing the modal returns to intro with index 0, no answers and score 0, and cancels the analyzing timer |
| Placement.Apply | components/PlacementTestModal.tsx:100-212 | with the corrected close (`Placement.Reset`): an event whose control is not on screen changes nothing; finishing leaves the session as it is; closing from any step returns to the initial session, timer cancelled |
| Placement.ApplyAsWritten | components/PlacementTestModal.tsx:89-95 | the as-written machine differs from the corrected one only on close, where it clears step, index, answers and score like the corrected close but keeps the pending timer |
| Placement.AnswerCounts | components/PlacementTestModal.tsx:54-60 | after an answer the score still equals the number of correct answers so far |
| Placement.ApplyInv | components/PlacementTestModal.tsx:52-95 | with the corrected close (`Placement.Reset`), every event keeps the session invariant: index in range, score equal to the correct-answer count, answers as many as questions passed, and a timer pending only while analyzing |
| Placement.RunInv | components/PlacementTestModal.tsx:13-68 | after any event sequence from a valid session, score ≤ number of answers ≤ 4 and the current question exists |
| Placement.ApplyAsWrittenInv | components/PlacementTestModal.tsx:52-95 | with `reset` as written, every event keeps a weaker invariant: index in range, score equal to the correct-answer count, answers as many as questions passed in the question step, and four answers while analyzing |
| Placement.RunAsWrittenInv | components/PlacementTestModal.tsx:13-95 | with `reset` as written too, after any event sequence score ≤ number of answers ≤ 4 and the current question exists |
| Placement.AnalyzingExits | components/PlacementTestModal.tsx:62-67 | apart from closing the modal, analyzing is left only by the timer, and only to the result step |
| Placement.ResultReportsAnswers | components/PlacementTestModal.tsx:54-87 | with the corrected close (`Placement.Reset`), whenever the result step is reached, all four questions were answered and the reported tier is that of the correct-answer count |
| Placement.StaleTimerAfterReset | components/PlacementTestModal.tsx:62-95 | as written, from a fresh session, any four answers then a close during analyzing leave a timer that puts the empty session into the result step, which reports "A2 (Elementary)" with score 0 and breaks the invariant |
| Placement.StaleTimerRun | components/PlacementTestModal.tsx:62-95 | as written, from a fresh session, four answers, a close and the stale timer end in the result step with index 0, no answers, score 0 and no timer left |
| Placement.EmptyResultReport | components/PlacementTestModal.tsx:71-87 | a result step with nothing answered reports "A2 (Elementary)" and violates the invariant |
| Placement.FourAnswers | components/PlacementTestModal.tsx:52-66 | from a fresh session, start and four answers reach the analyzing step on the last question with the answers recorded, the score equal to their correct count and one timer pending |
| Placement.FourAnswersDone | components/PlacementTestModal.tsx:52-67 | from a fresh session, start, four answers and the timer reach the result step with the answers recorded and the score equal to their correct count |
| Placement.AsWrittenAgrees | components/PlacementTestModal.tsx:89-95 | on event sequences without a close, the as-written machine and the corrected one end in the same session |
| Placement.ScenarioTwoCorrect | components/PlacementTestModal.tsx:13-87 | from a fresh session, answering the first two questions right and the last two wrong scores 2 and reports "B1 (Intermediate)" |
| Placement.ScenarioAllWrong | components/PlacementTestModal.tsx:13-87 | from a fresh session, four wrong answers score 0 and report "A2 (Elementary)" |
| Mastery.ColumnsMatchTable | components/VideoLessonView.tsx:13-54 | the five tasks have ids 1 to 5 in list order, correct options 1, 0, 1, 0, 1 and three options each |
| Mastery.RemoveId | components/VideoLessonView.tsx:152 | the filter keeps exactly the entries different from the id |
| Mastery.RemoveMarks | components/VideoLessonView.tsx:138 | the filter keeps exactly the marks of other tasks |
| Mastery.NextIncomplete | components/VideoLessonView.tsx:141-144 | the auto-advance target is the first task in list order with a larger id that was not complete before the answer, and there is none exactly when no task qualifies |
| Mastery.SubtitleIndex | components/VideoLessonView.tsx:158 | for a non-negative position the index is in [0, n-1] and is the largest index whose segment starts at or before the position |
| Mastery.SubtitleIndexMonotone | components/VideoLessonView.tsx:158 | a later position never shows an earlier subtitle |
| Mastery.SubtitleExample | components/VideoLessonView.tsx:158 | position 40 of 100 with five tasks shows subtitle 2, also when counted in ticks |
| Mastery.CurrentTaskIndex | components/VideoLessonView.tsx:158-159 | the current subtitle always belongs to one of the five tasks |
| Mastery.Toggle | components/VideoLessonView.tsx:126-129 | toggling a completed task changes nothing; otherwise the task becomes expanded exactly when it was not, replacing any other expanded task, and nothing else changes |
| Mastery.ToggleTwice | components/VideoLessonView.tsx:126-129 | toggling an open-able task twice from collapsed, or from itself expanded, returns to the same state |
| Mastery.Answer | components/VideoLessonView.tsx:131-155 | a correct answer completes the task, collapses it, drops exactly that task's wrong marks and schedules auto-expand of the next open task if there is one; a wrong answer keeps completion and expansion, appends the mark and the shake, and schedules the shake clear |
| Mastery.Fire | components/VideoLessonView.tsx:143-153 | a fired auto-expand sets the expanded id without a completion check; a fired shake clear removes every shake of its task; the timer is consumed and the rest is unchanged |
| Mastery.Tick | components/VideoLessonView.tsx:74-88 | each tick advances the position by one until the duration, then clamps to the duration and stops playing; the position never passes the duration |
| Mastery.PlayClick | components/VideoLessonView.tsx:100-108 | a play click marks the video started, restarts from 0 when at the end, and flips playing |
| Mastery.SubtitleClick | components/VideoLessonView.tsx:178-182 | a subtitle click pauses and expands the task of the current subtitle, without a completion check |
| Mastery.Mastered | components/VideoLessonView.tsx:196 | the success view replaces the lesson when the completed list has five entries; `MasteredIffAllComplete` shows that this means every task is complete |
| Mastery.QuizVisible | components/VideoLessonView.tsx:386 | a task's quiz is on screen only while that task is expanded and not complete; `Apply` takes answers only from a visible quiz |
| Mastery.Apply | components/VideoLessonView.tsx:196-401 | an event whose control is not on screen changes nothing; answers come only from a visible quiz |
| Mastery.AnswerInv | components/VideoLessonView.tsx:131-155 | an answer from a visible quiz keeps the tracker invariant |
| Mastery.ApplyInv | components/VideoLessonView.tsx:126-182 | every event keeps the tracker invariant: completed ids are distinct task ids, the position is within the duration, expanded and auto-expand ids are task ids, and wrong marks name only open tasks |
| Mastery.RunInv | components/VideoLessonView.tsx:126-182 | any event sequence from a valid state keeps the invariant |
| Mastery.RunGrows | components/VideoLessonView.tsx:134 | over any event sequence the completed list only grows: the old list is a prefix of the new one |
| Mastery.MarkSticky | components/VideoLessonView.tsx:138-149 | a wrong mark stays through any event sequence until its task is completed |
| Mastery.FullIffCovers | components/VideoLessonView.tsx:196 | a duplicate-free list of task ids has five entries exactly when it contains every task id |
| Mastery.MasteredIffAllComplete | components/VideoLessonView.tsx:196 | the success view shows exactly when every task is completed |
| Mastery.AnswerCompletedIsNoOp | components/VideoLessonView.tsx:386 | answering a completed task changes nothing, since its quiz is not rendered |
| Mastery.ScenarioRetry | components/VideoLessonView.tsx:131-155 | from any view with nothing completed, nothing expanded and no marks, two wrong options on task 3 keep it open with both marks; the right one completes it, clears the marks and schedules task 4 to open |
| Mastery.SubtitleExpandsCompleted | components/VideoLessonView.tsx:178-182 | after task 1 is completed, a subtitle click at the start expands it again, its quiz stays hidden, and the header toggle would have ignored it |
| VocabDemo.WordClick | components/VocabularyDemoModal.tsx:33-40 | clicking the active word changes nothing; any other word becomes active and the count rises by one, capped at five |
| VocabDemo.IsChecked | components/VocabularyDemoModal.tsx:92 | a word shows its check mark when its position is below the count, whichever word was clicked; `CheckedPrefix` and `CheckIsNotThePickedWord` state the consequences |
| VocabDemo.IsComplete | components/VocabularyDemoModal.tsx:42 | the demo is complete exactly when all five words show a check mark (with the count at most five) |
| VocabDemo.CheckedPrefix | components/VocabularyDemoModal.tsx:92 | the checked words form a prefix of the list, and all are checked once the demo is complete |
| VocabDemo.HandleAction | components/VocabularyDemoModal.tsx:44-50 | the sign-up callback runs exactly in demo mode when supplied, the completion callback exactly in user mode when supplied |
| VocabDemo.ActionButton | components/VocabularyDemoModal.tsx:127-129 | the button gives no callback until the demo is complete; once complete it calls sign-up exactly in demo mode when supplied, and completion exactly in user mode when supplied |
| VocabDemo.ButtonAfterFiveSwitches | components/VocabularyDemoModal.tsx:33-50 | from the opened demo, the sign-up button works after five switching clicks and gives no callback after fewer |
| VocabDemo.RunBounds | components/VocabularyDemoModal.tsx:28-40 | over any clicks the count stays in [0, 5] and never decreases |
| VocabDemo.SwitchingCount | components/VocabularyDemoModal.tsx:33-40 | every click on a word other than the active one counts once, up to five, whichever words they are |
| VocabDemo.SameMarks | components/VocabularyDemoModal.tsx:92 | the check marks depend only on the number of switching clicks, not on which words were clicked |
| VocabDemo.AlternatingCompletes | components/VocabularyDemoModal.tsx:33-42 | alternating between the first two words five times completes the demo |
| VocabDemo.CheckIsNotThePickedWord | components/VocabularyDemoModal.tsx:92 | clicking only the last word checks the first word and not the last |
| VocabDemo.RepeatedClickCountsOnce | components/VocabularyDemoModal.tsx:34 | clicking the same word five times counts once |
| Dashboard.BeginGenerate | components/Dashboard.tsx:72-77 | with an empty topic nothing changes; otherwise loading starts, the shown lesson is dropped, and nothing else changes |
| Dashboard.EndGenerate | components/Dashboard.tsx:78-85 | loading ends either way; success shows the generated lesson, failure leaves the shown lesson |
| Dashboard.GenerateWhole | components/Dashboard.tsx:72-86 | a whole generation with a topic ends not loading, showing the lesson on success and no lesson on failure, with the open lesson and daily progress untouched |
| Dashboard.DailyLesson | components/Dashboard.tsx:88-100 | the daily lesson carries the level passed down and is in progress |
| Dashboard.Open | components/Dashboard.tsx:223 | opening a lesson mounts a fresh tracker and leaves daily progress, the topic, loading and the generated lesson alone |
| Dashboard.DailyChallengeClick | components/Dashboard.tsx:88-101 | while the goal is open, the daily lesson at the passed level opens with a fresh tracker and progress kept; otherwise nothing changes; the topic, loading and the generated lesson are never touched |
| Dashboard.VideoComplete | components/Dashboard.tsx:104-107 | completing any lesson sets the daily progress to five and closes the lesson |
| Dashboard.VideoBack | components/Dashboard.tsx:114 | leaving a lesson closes it and keeps the daily progress |
| Dashboard.WordsLearned | components/Dashboard.tsx:160 | on a board that keeps the invariant, the figure is 47 exactly when the daily goal is reached and 42 exactly when progress is 0 |
| Dashboard.Apply | components/Dashboard.tsx:109-118 | an event whose control is not on screen changes nothing |
| Dashboard.RunInv | components/Dashboard.tsx:160 | over any event sequence the daily progress is 0 or 5, so the words-learned figure is 42 or 47, and the open tracker keeps its invariant |
| Dashboard.GoalOnlyByMastery | components/Dashboard.tsx:104-115 | the daily goal is reached only by collecting an open lesson whose tasks are all mastered |
| Dashboard.GoalIsFinal | components/Dashboard.tsx:104-107 | once reached, the daily goal stays reached over any event sequence while the dashboard stays mounted; signing out unmounts it and the next login starts again at 0 |
| AppShell.TestComplete | App.tsx:32-37 | the placement result is stored, the test closes, the source becomes the test and the sign-in page shows |
| AppShell.LoginSuccess | App.tsx:40-46 | login shows the dashboard home tab; it stores "B1 (Intermediate)" when the level its closure read was empty and otherwise keeps the current level |
| AppShell.SubmitSignIn | components/AuthPage.tsx:18-24 | submitting shows the loading state and schedules one more sign-in after the pending ones, recording the current level; the page and the level are kept |
| AppShell.AuthBackAsWritten | components/AuthPage.tsx:100 | as wired, the back link goes home and forgets the level but leaves every scheduled sign-in pending |
| AppShell.AuthBackCancelling | components/AuthPage.tsx:100 | the back link goes home, forgets the level and cancels the scheduled sign-ins |
| AppShell.NavigateToHome | App.tsx:48-53 | going home shows the landing page, resets the source and forgets the level |
| AppShell.SignOutRequest | App.tsx:55-57 | a sign-out request only opens the dialog; page, level and everything else are kept |
| AppShell.ConfirmSignOut | App.tsx:59-62 | a confirmed sign-out closes the dialog and goes home |
| AppShell.NavigateToPage | App.tsx:64-67 | page navigation changes only the page |
| AppShell.DirectSignup | App.tsx:70-74 | direct sign-up forgets the level, records the source and shows the sign-in page |
| AppShell.VideoDemoSignup | App.tsx:198-201 | the video demo's sign-up closes the demo and signs up from videos |
| AppShell.VocabDemoSignup | App.tsx:207-210 | the vocabulary demo's sign-up closes the demo and signs up from vocabulary |
| AppShell.ParseTab | App.tsx:169-170 | the three tab names map to the three tabs |
| AppShell.MobileTabChange | App.tsx:167-172 | only the three tab names change the tab; any other string changes nothing |
| AppShell.DashboardLevel | App.tsx:161 | the dashboard receives the stored level when there is one and "B1 (Intermediate)" when it is empty |
| AppShell.LogoClickAsWritten | components/Navbar.tsx:19 | as wired, the logged-out logo opens the sign-out dialog and stays on the page |
| AppShell.LogoClick | App.tsx:48-53 | the logged-out logo leads to the landing page and leaves the sign-out dialog alone |
| AppShell.Step | App.tsx:76-182 | an event whose control is not on screen changes nothing; a submit on the sign-in page, while not loading, starts loading and appends a sign-in that carries the current level; a scheduled sign-in fires on whatever page is shown, opens the dashboard and is consumed, storing the default when the level it read was empty and keeping the current level otherwise; the back link goes home and forgets the level, keeping the scheduled sign-ins as wired and cancelling them when corrected |
| AppShell.ApplyInv | App.tsx:32-74 | with the corrected logo and back link, every event keeps the stored level empty or a CEFR label, the sign-out dialog open only over the dashboard, and a scheduled sign-in only on the sign-in page while it loads: one, carrying the current level |
| AppShell.RunInv | App.tsx:32-74 | any event sequence from a valid state keeps the invariant |
| AppShell.DashboardGetsLabel | App.tsx:161 | with the corrected logo and back link, whatever the learner does, the dashboard receives a CEFR label and the sign-out dialog is never open outside the dashboard |
| AppShell.RunAsWrittenLevel | App.tsx:32-74 | with the logo and the back link as wired, too, any event sequence keeps the stored level empty or a CEFR label, so the dashboard receives a CEFR label |
| AppShell.ApplyAsWrittenLevel | App.tsx:32-74 | every event of the as-wired machine keeps the stored level empty or a CEFR label |
| AppShell.LoginShowsNoDialog | App.tsx:40-46 | entering the dashboard from sign-in never shows the sign-out dialog |
| AppShell.DashboardOnlyFromSignIn | components/AuthPage.tsx:18-24 | with the back link cancelling, a page other than the dashboard leads to the dashboard only by a sign-in firing on the sign-in page, which stores the default for an empty level and keeps a measured one |
| AppShell.SignInCompletes | App.tsx:40-46 | on either machine, a submit and its timer open the dashboard with the sign-out dialog and the source unchanged; with no older sign-in pending the dashboard gets the level the sign-in page had, and an empty level always ends as the default |
| AppShell.StaleLoginAfterBack | components/AuthPage.tsx:18-24 | as wired, from a landing page with nothing scheduled, "Get Started", a submit, the back link, the placement test and the old timer end on the dashboard with the test as the source but "B1 (Intermediate)" stored instead of the measured level |
| AppShell.LogoArmsSignOutDialog | App.tsx:182 | as wired, from any landing page, a logo click, then sign-up, submit and its timer, shows the dashboard with the sign-out dialog open |
| AppShell.PlacementLevelReachesDashboard | App.tsx:32-46 | from a landing page with no sign-in pending, a measured level reaches the dashboard unchanged through submit and its timer, with the source recorded as the test |
| AppShell.DemoSignupDefaultsLevel | App.tsx:207-210 | from any landing page, signing up from the vocabulary demo and submitting gives the dashboard the default level, with the demo closed and the source recorded as vocabulary |
| AppShell.SignOutForgetsLevel | App.tsx:48-74 | signing out, then signing up and submitting again, gives the dashboard the default level, with the sign-out dialog closed |

## Left out

- The network call of `services/geminiService.ts` is not part of this model. The dashboard sees its result only as an `Outcome`: success with a generated lesson, or failure. The `alert` on failure is left out.
- The progress clock: the source adds 0.2 to a binary floating-point position (`VideoLessonView.tsx:83`). The model counts whole ticks of exactly 0.2, so it does not follow the rounding drift. The drift can put a subtitle boundary (`VideoLessonView.tsx:158`) one tick later than in the model. In IEEE double arithmetic, 100 additions of 0.2 give 19.99999999999996, so the second subtitle appears on tick 101 rather than tick 100. The end of the video is reached past the exact duration too: 500 additions give 100.00000000000088.
- Volume and mute (`VideoLessonView.tsx:110-124`, `:162`), percentage widths and `Math.round` are left out because they are floating-point presentation.
- The regex split of the subtitle sentence (`VideoLessonView.tsx:169-174`) is left out. It depends on the JavaScript regex engine. Only the click effect of the highlighted word is modelled.
- The empty completion effect (`VideoLessonView.tsx:91-98`) does nothing and is left out.
- Timer durations (1500 ms, 500 ms, 1000 ms, the 50 ms interval) are left out. Timers fire in any order the events choose, and only while scheduled. The one exception is the sign-in page: its timers all last 1500 ms, so they fire oldest first.
- Dashboard.Apply: the tab views are not separated. Generation, the daily button and the history list are enabled whenever no lesson is open, whichever tab is shown.
- The sign-in page's copy selection and form fields, the presentational components, and the static pages' content are left out.
- The video demo modal beyond its sign-up callback is left out.
- `window.scrollTo` is left out.
- Unmounting is modelled only where a state record is dropped. `Dashboard.Back` and `Dashboard.Collect` drop the open tracker and its pending `AutoExpand`/`ShakeClear` timers. The source clears only the playback interval on unmount (`VideoLessonView.tsx:87`). The `setTimeout` calls at `VideoLessonView.tsx:143` and `:151` are never cleared, so they still fire after Back or Collect. React then discards their state updates, because the tracker is no longer mounted. Dropping them with the tracker has the same visible effect. The app shell does not carry the state of the components it unmounts, except the sign-in page's loading flag, which starts false on each entry, and its scheduled sign-ins, which outlive the page. Signing out unmounts the dashboard, so its daily progress (`Dashboard.tsx:22`) starts again at 0 at the next login, although the sign-out dialog says the daily progress has been saved (`SignOutModal.tsx:31`). Leaving the landing page likewise discards a placement session. `Dashboard.GoalIsFinal` and the other dashboard lemmas therefore hold within one mount of the dashboard.
- AppShell.Enabled: allows more than the page does. The landing page's controls stay enabled while a modal covers the page, so two modals can be open at once. `VocabSignup` is enabled before the demo's five clicks, although `VocabDemo.ActionButton` gives no callback until then. The proved invariants do not depend on these controls being hidden.
- The success view's button, which calls the lesson's `onComplete`, is the dashboard's `Collect` event. It is enabled while the open tracker shows the success view.

## Findings

| source | as written | input that shows it | evidently intended | confidence | as-written member | corrected member |
|---|---|---|---|---|---|---|
| components/PlacementTestModal.tsx:89-95 | closing the modal clears the accumulators but does not cancel the 1500 ms analyzing timer | start, four answers (0, 1, 2, 1 is the all-correct sheet), close during analyzing, timer fires: the result step shows an empty session and reports "A2 (Elementary)" despite four correct answers | closing the modal discards the pending result | not executed | Placement.StaleTimerAfterReset | Placement.Reset |
| components/AuthPage.tsx:18-24 | the submit schedules the sign-in callback after 1500 ms and nothing cancels it; the back link stays enabled while the form is loading | "Get Started", submit, "Back to Home", then the placement test with a measured level, then the timer fires: the dashboard opens although the form was not submitted on this visit, and "B1 (Intermediate)" is stored instead of the measured level | the back link abandons the sign-in | not executed | AppShell.StaleLoginAfterBack | AppShell.AuthBackCancelling |
| App.tsx:182 | the logged-out navbar's logo calls the sign-out request, which only sets the sign-out dialog flag | logo click on the landing page, then "Get Started", submit and its timer: the dashboard opens with the sign-out dialog showing | the logo leads back to the landing page | not executed | AppShell.LogoArmsSignOutDialog | AppShell.LogoClick |

The as-written halves are `Placement.ResetAsWritten` (run by `Placement.RunAsWritten`),
and `AppShell.AuthBackAsWritten` and `AppShell.LogoClickAsWritten` (run by
`AppShell.RunAsWritten`). The corrected `Placement.Reset`,
`AppShell.AuthBackCancelling` and `AppShell.LogoClick` are used by `Apply`.
They keep the invariants proved by `Placement.RunInv` and `AppShell.RunInv`;
`AppShell.DashboardOnlyFromSignIn` is the property the cancelling back link
restores.

=== FILE: app.dfy ===
/** The top-level glue of `App.tsx`: which page is shown, which modal is
    open, the level the placement test produced and the feature that sent the
    learner to sign-up. */
module AppShell {
  import Cefr

  datatype Page = Landing | AuthPage | DashboardPage | About | Contact | Costs | Privacy

  datatype Tab = Home | Lessons | Profile

  datatype AuthSource = Generic | CefrTest | Vocabulary | Videos

  datatype App = App(
    view: Page,
    tab: Tab,
    placementOpen: bool,
    videoDemoOpen: bool,
    vocabDemoOpen: bool,
    signOutOpen: bool,
    userLevel: string,
    authSource: AuthSource,
    authLoading: bool,
    pendingLogin: seq<string>)

  /** `authLoading` is the sign-in page's own `loading` flag, which starts
      false each time the page is entered. `pendingLogin` holds, oldest
      first, the simulated sign-in calls whose 1500 ms timer has not fired
      yet; nothing cancels them. Each holds the `handleLoginSuccess` of the
      render that scheduled it, so each records the `userLevel` that
      closure reads. */
  const Initial: App := App(Landing, Home, false, false, false, false, "", Generic, false, [])

  /** The level assumed when none was measured. */
  const DefaultLevel: string := "B1 (Intermediate)"

  /** `handleTestComplete`. */
  function TestComplete(a: App, level: string): (r: App)
    ensures r.userLevel == level && !r.placementOpen && r.authSource == CefrTest && r.view == AuthPage
    ensures !r.authLoading
    ensures r == a.(userLevel := level, placementOpen := false, authSource := CefrTest, view := AuthPage, authLoading := false)
  {
    a.(userLevel := level, placementOpen := false, authSource := CefrTest, view := AuthPage, authLoading := false)
  }

  /** `handleLoginSuccess`, run by a closure that read the level as
      `captured`: if that was empty the default is stored, otherwise the
      current level is kept. */
  function LoginSuccess(a: App, captured: string): (r: App)
    ensures r.view == DashboardPage && r.tab == Home
    ensures captured == "" ==> r.userLevel == DefaultLevel
    ensures captured != "" ==> r.userLevel == a.userLevel
    ensures r == a.(view := DashboardPage, tab := Home, userLevel := r.userLevel)
  {
    var level := if captured == "" then DefaultLevel else a.userLevel;
    a.(userLevel := level, view := DashboardPage, tab := Home)
  }

  /** The sign-in form's submit: the page shows its loading state and a
      timer will call the sign-in callback of this render. */
  function SubmitSignIn(a: App): (r: App)
    ensures r.authLoading && r.view == a.view && r.userLevel == a.userLevel
    ensures |r.pendingLogin| == |a.pendingLogin| + 1
    ensures r.pendingLogin[..|a.pendingLogin|] == a.pendingLogin
    ensures r.pendingLogin[|a.pendingLogin|] == a.userLevel
    ensures r == a.(authLoading := true, pendingLogin := r.pendingLogin)
  {
    a.(authLoading := true, pendingLogin := a.pendingLogin + [a.userLevel])
  }

  /** `navigateToHome`. */
  function NavigateToHome(a: App): (r: App)
    ensures r.view == Landing && r.authSource == Generic && r.userLevel == ""
    ensures r == a.(view := Landing, authSource := Generic, userLevel := "")
  {
    a.(view := Landing, authSource := Generic, userLevel := "")
  }

  /** `handleSignOutRequest`. */
  function SignOutRequest(a: App): (r: App)
    ensures r == a.(signOutOpen := true)
  {
    a.(signOutOpen := true)
  }

  /** `handleConfirmSignOut`: close the dialog, then go home. */
  function ConfirmSignOut(a: App): (r: App)
    ensures !r.signOutOpen
    ensures r == NavigateToHome(a).(signOutOpen := false)
  {
    NavigateToHome(a.(signOutOpen := false))
  }

  /** `navigateToPage`: only the page changes. */
  function NavigateToPage(a: App, page: Page): (r: App)
    ensures r.view == page
    ensures r == a.(view := page)
  {
    a.(view := page)
  }

  /** `handleDirectSignup`: sign-up without a measured level. */
  function DirectSignup(a: App, source: AuthSource): (r: App)
    ensures r.userLevel == "" && r.authSource == source && r.view == AuthPage && !r.authLoading
    ensures r == a.(userLevel := "", authSource := source, view := AuthPage, authLoading := false)
  {
    a.(userLevel := "", authSource := source, view := AuthPage, authLoading := false)
  }

  /** The video demo's sign-up: close the demo, then sign up from `videos`. */
  function VideoDemoSignup(a: App): (r: App)
    ensures !r.videoDemoOpen
    ensures r == DirectSignup(a, Videos).(videoDemoOpen := false)
  {
    DirectSignup(a.(videoDemoOpen := false), Videos)
  }

  /** The vocabulary demo's sign-up: close the demo, then sign up from `vocabulary`. */
  function VocabDemoSignup(a: App): (r: App)
    ensures !r.vocabDemoOpen
    ensures r == DirectSignup(a, Vocabulary).(vocabDemoOpen := false)
  {
    DirectSignup(a.(vocabDemoOpen := false), Vocabulary)
  }

  /** The mobile navigation's tab names. */
  function ParseTab(name: string): (r: Tab)
    requires name in {"home", "lessons", "profile"}
    ensures name == "home" <==> r == Home
    ensures name == "lessons" <==> r == Lessons
  {
    if name == "home" then Home else if name == "lessons" then Lessons else Profile
  }

  /** The mobile navigation callback: only the three tab names are accepted. */
  function MobileTabChange(a: App, name: string): (r: App)
    ensures name !in {"home", "lessons", "profile"} ==> r == a
    ensures name in {"home", "lessons", "profile"} ==> r == a.(tab := ParseTab(name))
  {
    if name in {"home", "lessons", "profile"} then a.(tab := ParseTab(name)) else a
  }

  /** The level handed to the dashboard: `userLevel || "B1 (Intermediate)"`. */
  function DashboardLevel(a: App): (level: string)
    ensures level != ""
    ensures a.userLevel != "" ==> level == a.userLevel
    ensures a.userLevel == "" ==> level == DefaultLevel
  {
    if a.userLevel == "" then DefaultLevel else a.userLevel
  }

  // ------------------------------------------------------------- events

  datatype Event =
    | OpenPlacement | ClosePlacement | PlacementDone(level: string)
    | OpenVideoDemo | CloseVideoDemo | VideoSignup
    | OpenVocabDemo | CloseVocabDemo | VocabSignup
    | NavLogo | GetStarted | FooterPage(page: Page) | FooterSignup
    | Submit | Login | AuthBack
    | ProfileClick | SetTab(tab: Tab) | MobileTab(name: string)
    | NavSignOut | CancelSignOut | ConfirmSignOutEv

  /** Which controls are on screen, and which timers are due. The sign-in
      page has its form, disabled while loading, and its back link; a
      scheduled sign-in fires whatever is on screen by then. The dashboard
      has the logged-in navbar, the tab callbacks and the sign-out dialog;
      the other pages have the logged-out navbar and the footer, whose links
      lead to the public pages only, and the landing page also hosts the
      three modals. A placement result is one of the labels the test
      produces. */
  predicate Enabled(a: App, e: Event) {
    var public := a.view != AuthPage && a.view != DashboardPage;
    match e
    case OpenPlacement => a.view == Landing
    case ClosePlacement => a.view == Landing && a.placementOpen
    case PlacementDone(level) => a.view == Landing && a.placementOpen && level in Cefr.Labels
    case OpenVideoDemo => a.view == Landing
    case CloseVideoDemo => a.view == Landing && a.videoDemoOpen
    case VideoSignup => a.view == Landing && a.videoDemoOpen
    case OpenVocabDemo => a.view == Landing
    case CloseVocabDemo => a.view == Landing && a.vocabDemoOpen
    case VocabSignup => a.view == Landing && a.vocabDemoOpen
    case NavLogo => public
    case GetStarted => public
    case FooterPage(p) => public && p != AuthPage && p != DashboardPage
    case FooterSignup => public
    case Submit => a.view == AuthPage && !a.authLoading
    case Login => a.pendingLogin != []
    case AuthBack => a.view == AuthPage
    case ProfileClick => a.view == DashboardPage
    case SetTab(_) => a.view == DashboardPage
    case MobileTab(_) => a.view == DashboardPage
    case NavSignOut => a.view == DashboardPage
    case CancelSignOut => a.view == DashboardPage && a.signOutOpen
    case ConfirmSignOutEv => a.view == DashboardPage && a.signOutOpen
  }

  /** The logged-out navbar's logo as wired: it calls the sign-out request. */
  function LogoClickAsWritten(a: App): (r: App)
    ensures r.signOutOpen && r.view == a.view
  {
    SignOutRequest(a)
  }

  /** The logged-out navbar's logo as a way back to the landing page, which
      leaves the sign-out dialog alone. */
  function LogoClick(a: App): (r: App)
    ensures r.signOutOpen == a.signOutOpen && r.view == Landing
  {
    NavigateToHome(a)
  }

  /** The sign-in page's back link as wired: home, with the scheduled
      sign-ins still running. */
  function AuthBackAsWritten(a: App): (r: App)
    ensures r.view == Landing && r.userLevel == "" && r.pendingLogin == a.pendingLogin
  {
    NavigateToHome(a)
  }

  /** The back link as a way out of signing in: home, with the scheduled
      sign-ins cancelled. */
  function AuthBackCancelling(a: App): (r: App)
    ensures r.view == Landing && r.userLevel == "" && r.pendingLogin == []
  {
    NavigateToHome(a).(pendingLogin := [])
  }

  /** One event, with the logo and the sign-in page's back link either as
      wired or corrected. A scheduled sign-in takes the learner to the
      dashboard from any page, and only the level its closure read decides
      whether the default is stored. */
  function Step(a: App, e: Event, asWritten: bool): (r: App)
    ensures !Enabled(a, e) ==> r == a
    ensures e == Submit && Enabled(a, e) ==>
      r.authLoading && r.view == AuthPage && r.pendingLogin == a.pendingLogin + [a.userLevel]
    ensures e == Login && a.pendingLogin != [] ==>
      r.view == DashboardPage && r.pendingLogin == a.pendingLogin[1..]
      && (a.pendingLogin[0] == "" ==> r.userLevel == DefaultLevel)
      && (a.pendingLogin[0] != "" ==> r.userLevel == a.userLevel)
    ensures e == AuthBack && a.view == AuthPage ==>
      r.view == Landing && r.userLevel == ""
      && r.pendingLogin == (if asWritten then a.pendingLogin else [])
  {
    if !Enabled(a, e) then a
    else match e
      case OpenPlacement => a.(placementOpen := true)
      case ClosePlacement => a.(placementOpen := false)
      case PlacementDone(level) => TestComplete(a, level)
      case OpenVideoDemo => a.(videoDemoOpen := true)
      case CloseVideoDemo => a.(videoDemoOpen := false)
      case VideoSignup => VideoDemoSignup(a)
      case OpenVocabDemo => a.(vocabDemoOpen := true)
      case CloseVocabDemo => a.(vocabDemoOpen := false)
      case VocabSignup => VocabDemoSignup(a)
      case NavLogo => if asWritten then LogoClickAsWritten(a) else LogoClick(a)
      case GetStarted => DirectSignup(a, Generic)
      case FooterPage(p) => NavigateToPage(a, p)
      case FooterSignup => DirectSignup(a, Generic)
      case Submit => SubmitSignIn(a)
      case Login => LoginSuccess(a, a.pendingLogin[0]).(pendingLogin := a.pendingLogin[1..])
      case AuthBack => if asWritten then AuthBackAsWritten(a) else AuthBackCancelling(a)
      case ProfileClick => a.(tab := Profile)
      case SetTab(t) => a.(tab := t)
      case MobileTab(name) => MobileTabChange(a, name)
      case NavSignOut => SignOutRequest(a)
      case CancelSignOut => a.(signOutOpen := false)
      case ConfirmSignOutEv => ConfirmSignOut(a)
  }

  function Apply(a: App, e: Event): App {
    Step(a, e, false)
  }

  function ApplyAsWritten(a: App, e: Event): App {
    Step(a, e, true)
  }

  function Run(a: App, evs: seq<Event>): App
    decreases |evs|
  {
    if evs == [] then a else Run(Apply(a, evs[0]), evs[1..])
  }

  function RunAsWritten(a: App, evs: seq<Event>): App
    decreases |evs|
  {
    if evs == [] then a else RunAsWritten(ApplyAsWritten(a, evs[0]), evs[1..])
  }

  // ---------------------------------------------------------- invariant

  /** The stored level is empty or a CEFR label, the sign-out dialog is only
      ever open over the dashboard, and a scheduled sign-in exists only on
      the sign-in page while it is loading: exactly one, which read the
      current level. */
  ghost predicate Inv(a: App) {
    LevelOk(a) && (a.signOutOpen ==> a.view == DashboardPage)
    && (a.pendingLogin != [] ==>
          a.view == AuthPage && a.authLoading && a.pendingLogin == [a.userLevel])
  }

  /** The level half of the invariant, which the wiring of the logo and of
      the back link does not touch. */
  ghost predicate LevelOk(a: App) {
    a.userLevel == "" || a.userLevel in Cefr.Labels
  }

  lemma ApplyInv(a: App, e: Event)
    requires Inv(a)
    ensures Inv(Apply(a, e))
  {
    Cefr.ParseLabel(Cefr.B1);
  }

  lemma {:induction false} RunInv(a: App, evs: seq<Event>)
    requires Inv(a)
    ensures Inv(Run(a, evs))
    decreases |evs|
  {
    if evs != [] {
      ApplyInv(a, evs[0]);
      RunInv(Apply(a, evs[0]), evs[1..]);
    }
  }

  /** The logo as wired keeps the level half of the invariant too, so the
      dashboard receives a CEFR label on that machine as well. */
  lemma {:induction false} RunAsWrittenLevel(a: App, evs: seq<Event>)
    requires LevelOk(a)
    ensures LevelOk(RunAsWritten(a, evs))
    ensures DashboardLevel(RunAsWritten(a, evs)) in Cefr.Labels
    decreases |evs|
  {
    Cefr.ParseLabel(Cefr.B1);
    if evs != [] {
      ApplyAsWrittenLevel(a, evs[0]);
      RunAsWrittenLevel(ApplyAsWritten(a, evs[0]), evs[1..]);
    }
  }

  lemma ApplyAsWrittenLevel(a: App, e: Event)
    requires LevelOk(a)
    ensures LevelOk(ApplyAsWritten(a, e))
  {
    Cefr.ParseLabel(Cefr.B1);
  }

  /** With the corrected logo and back link, whatever the learner does, the
      dashboard receives a CEFR label and the sign-out dialog is never open
      outside the dashboard. */
  lemma DashboardGetsLabel(evs: seq<Event>)
    ensures DashboardLevel(Run(Initial, evs)) in Cefr.Labels
    ensures Run(Initial, evs).signOutOpen ==> Run(Initial, evs).view == DashboardPage
  {
    RunInv(Initial, evs);
    Cefr.ParseLabel(Cefr.B1);
  }

  /** Entering the dashboard from sign-in never shows the sign-out dialog. */
  lemma LoginShowsNoDialog(a: App)
    requires Inv(a) && a.view == AuthPage
    ensures !Apply(a, Login).signOutOpen
  {
  }

  /** With the back link cancelling, the dashboard is entered only by a
      sign-in that fires on the sign-in page, and that sign-in reads the
      current level: an empty one becomes the default, a measured one is
      kept. */
  lemma DashboardOnlyFromSignIn(a: App, e: Event)
    requires Inv(a) && a.view != DashboardPage && Apply(a, e).view == DashboardPage
    ensures a.view == AuthPage && e == Login
    ensures a.userLevel == "" ==> Apply(a, e).userLevel == DefaultLevel
    ensures a.userLevel != "" ==> Apply(a, e).userLevel == a.userLevel
  {
  }

  /** As wired, a sign-in submitted before the back link still fires: after
      the learner has gone home and taken the placement test, it takes them
      to the dashboard unasked, and since its closure read the empty level
      it stores the default over the measured one. */
  lemma StaleLoginAfterBack(a0: App, level: string)
    requires a0.view == Landing && a0.pendingLogin == []
    requires level in Cefr.Labels && level != DefaultLevel
    ensures var a := RunAsWritten(a0,
                       [GetStarted, Submit, AuthBack, OpenPlacement, PlacementDone(level), Login]);
      a.view == DashboardPage && a.authSource == CefrTest
      && a.userLevel == DefaultLevel && DashboardLevel(a) != level
  {
    var evs := [GetStarted, Submit, AuthBack, OpenPlacement, PlacementDone(level), Login];
    var a2 := SubmitPending(a0);
    var a4 := BackThenPlacement(a2);
    var a6 := LateLoginAfterPlacement(a4, level);
    RunAsWrittenThree(a0, [GetStarted, Submit], [AuthBack, OpenPlacement], [PlacementDone(level), Login]);
    assert evs == [GetStarted, Submit] + [AuthBack, OpenPlacement] + [PlacementDone(level), Login];
  }

  /** Signing up and submitting schedules a sign-in that read the empty level. */
  lemma SubmitPending(a0: App) returns (a2: App)
    requires a0.view == Landing && a0.pendingLogin == []
    ensures a2 == RunAsWritten(a0, [GetStarted, Submit])
    ensures a2.view == AuthPage && a2.pendingLogin == [""]
  {
    var a1 := ApplyAsWritten(a0, GetStarted);
    assert a1.view == AuthPage && !a1.authLoading && a1.userLevel == "" && a1.pendingLogin == [];
    a2 := ApplyAsWritten(a1, Submit);
    RunAsWrittenPair(a0, GetStarted, Submit);
  }

  /** As wired, going back leaves that sign-in scheduled while the learner
      opens the placement test. */
  lemma BackThenPlacement(a2: App) returns (a4: App)
    requires a2.view == AuthPage && a2.pendingLogin == [""]
    ensures a4 == RunAsWritten(a2, [AuthBack, OpenPlacement])
    ensures a4.view == Landing && a4.placementOpen && a4.pendingLogin == [""]
  {
    var a3 := ApplyAsWritten(a2, AuthBack);
    assert a3.view == Landing && a3.pendingLogin == [""];
    a4 := ApplyAsWritten(a3, OpenPlacement);
    RunAsWrittenPair(a2, AuthBack, OpenPlacement);
  }

  /** The placement result leads to the sign-in page, where the old timer
      fires with the empty level its closure read. */
  lemma LateLoginAfterPlacement(a4: App, level: string) returns (a6: App)
    requires a4.view == Landing && a4.placementOpen && a4.pendingLogin == [""]
    requires level in Cefr.Labels
    ensures a6 == RunAsWritten(a4, [PlacementDone(level), Login])
    ensures a6.view == DashboardPage && a6.authSource == CefrTest && a6.userLevel == DefaultLevel
  {
    var a5 := ApplyAsWritten(a4, PlacementDone(level));
    assert a5.view == AuthPage && a5.authSource == CefrTest && a5.pendingLogin == [""];
    LoginStep(a5, true);
    a6 := ApplyAsWritten(a5, Login);
    RunAsWrittenPair(a4, PlacementDone(level), Login);
  }

  lemma {:induction false} RunAsWrittenAppend(a: App, xs: seq<Event>, ys: seq<Event>)
    ensures RunAsWritten(a, xs + ys) == RunAsWritten(RunAsWritten(a, xs), ys)
    decreases |xs|
  {
    if xs != [] {
      assert (xs + ys)[0] == xs[0];
      assert (xs + ys)[1..] == xs[1..] + ys;
      RunAsWrittenAppend(ApplyAsWritten(a, xs[0]), xs[1..], ys);
    } else {
      assert xs + ys == ys;
    }
  }

  lemma {:induction false} RunAppend(a: App, xs: seq<Event>, ys: seq<Event>)
    ensures Run(a, xs + ys) == Run(Run(a, xs), ys)
    decreases |xs|
  {
    if xs != [] {
      assert (xs + ys)[0] == xs[0];
      assert (xs + ys)[1..] == xs[1..] + ys;
      RunAppend(Apply(a, xs[0]), xs[1..], ys);
    } else {
      assert xs + ys == ys;
    }
  }

  lemma RunPair(a: App, e1: Event, e2: Event)
    ensures Run(a, [e1, e2]) == Apply(Apply(a, e1), e2)
  {
    assert [e1, e2][1..] == [e2];
    assert Run(a, [e1, e2]) == Run(Apply(a, e1), [e2]);
  }

  lemma RunAsWrittenThree(a: App, xs: seq<Event>, ys: seq<Event>, zs: seq<Event>)
    ensures RunAsWritten(a, xs + ys + zs) == RunAsWritten(RunAsWritten(RunAsWritten(a, xs), ys), zs)
  {
    RunAsWrittenAppend(a, xs, ys);
    RunAsWrittenAppend(a, xs + ys, zs);
  }

  lemma RunAsWrittenPair(a: App, e1: Event, e2: Event)
    ensures RunAsWritten(a, [e1, e2]) == ApplyAsWritten(ApplyAsWritten(a, e1), e2)
  {
    assert [e1, e2][1..] == [e2];
    assert RunAsWritten(a, [e1, e2]) == RunAsWritten(ApplyAsWritten(a, e1), [e2]);
  }

  /** Submitting the sign-in form and letting its timer fire, on either
      machine: the dashboard opens with the dialogs and the source as they
      were; with no older sign-in pending the level is the one the closure
      read, and an empty level always ends as the default. */
  lemma SignInCompletes(a: App, asWritten: bool)
    requires a.view == AuthPage && !a.authLoading
    ensures var r := Step(Step(a, Submit, asWritten), Login, asWritten);
      r.view == DashboardPage && r.signOutOpen == a.signOutOpen && r.authSource == a.authSource
      && (a.pendingLogin == [] ==> DashboardLevel(r) == DashboardLevel(a))
      && (a.userLevel == "" ==> DashboardLevel(r) == DefaultLevel)
  {
    var a1 := Step(a, Submit, asWritten);
    SubmitStep(a, asWritten);
    LoginStep(a1, asWritten);
    assert a1.pendingLogin[0] == (if a.pendingLogin == [] then a.userLevel else a.pendingLogin[0]);
  }

  lemma SubmitStep(a: App, asWritten: bool)
    requires a.view == AuthPage && !a.authLoading
    ensures Step(a, Submit, asWritten) == SubmitSignIn(a)
  {
    assert Enabled(a, Submit);
  }

  lemma LoginStep(a: App, asWritten: bool)
    requires a.pendingLogin != []
    ensures Step(a, Login, asWritten) == LoginSuccess(a, a.pendingLogin[0]).(pendingLogin := a.pendingLogin[1..])
  {
    assert Enabled(a, Login);
  }

  /** As wired, a logo click on the landing page arms the sign-out dialog,
      which then opens the moment the learner reaches the dashboard. */
  lemma LogoArmsSignOutDialog(a0: App)
    requires a0.view == Landing
    ensures var a := RunAsWritten(a0, [NavLogo, GetStarted, Submit, Login]);
      a.view == DashboardPage && a.signOutOpen
  {
    var evs := [NavLogo, GetStarted, Submit, Login];
    var a2 := LogoThenSignUp(a0);
    assert RunAsWritten(a0, evs) == RunAsWritten(a2, [Submit, Login]) by {
      assert evs == [NavLogo, GetStarted] + [Submit, Login];
      RunAsWrittenAppend(a0, [NavLogo, GetStarted], [Submit, Login]);
    }
    RunAsWrittenPair(a2, Submit, Login);
    SignInCompletes(a2, true);
  }

  lemma LogoThenSignUp(a0: App) returns (a2: App)
    requires a0.view == Landing
    ensures a2 == RunAsWritten(a0, [NavLogo, GetStarted])
    ensures a2.view == AuthPage && a2.signOutOpen && !a2.authLoading
  {
    var a1 := ApplyAsWritten(a0, NavLogo);
    assert a1 == a0.(signOutOpen := true);
    a2 := ApplyAsWritten(a1, GetStarted);
    RunAsWrittenPair(a0, NavLogo, GetStarted);
  }

  /** A measured level reaches the dashboard unchanged. */
  lemma PlacementLevelReachesDashboard(a0: App, level: string)
    requires a0.view == Landing && a0.pendingLogin == [] && level in Cefr.Labels
    ensures var a := Run(a0, [OpenPlacement, PlacementDone(level), Submit, Login]);
      a.view == DashboardPage && a.authSource == CefrTest && DashboardLevel(a) == level
  {
    var evs := [OpenPlacement, PlacementDone(level), Submit, Login];
    var a2 := PlacementThenSignUp(a0, level);
    assert Run(a0, evs) == Run(a2, [Submit, Login]) by {
      assert evs == [OpenPlacement, PlacementDone(level)] + [Submit, Login];
      RunAppend(a0, [OpenPlacement, PlacementDone(level)], [Submit, Login]);
    }
    RunPair(a2, Submit, Login);
    SignInCompletes(a2, false);
  }

  lemma PlacementThenSignUp(a0: App, level: string) returns (a2: App)
    requires a0.view == Landing && a0.pendingLogin == [] && level in Cefr.Labels
    ensures a2 == Run(a0, [OpenPlacement, PlacementDone(level)])
    ensures a2.userLevel == level && a2.view == AuthPage && !a2.authLoading
      && a2.pendingLogin == [] && a2.authSource == CefrTest
  {
    var a1 := Apply(a0, OpenPlacement);
    assert a1 == a0.(placementOpen := true);
    a2 := Apply(a1, PlacementDone(level));
    RunPair(a0, OpenPlacement, PlacementDone(level));
  }

  /** Signing up from the vocabulary demo leaves the dashboard at the default level. */
  lemma DemoSignupDefaultsLevel(a0: App)
    requires a0.view == Landing
    ensures var a := Run(a0, [OpenVocabDemo, VocabSignup, Submit, Login]);
      a.view == DashboardPage && a.authSource == Vocabulary && !a.vocabDemoOpen
      && DashboardLevel(a) == DefaultLevel
  {
    var evs := [OpenVocabDemo, VocabSignup, Submit, Login];
    var a2 := DemoThenSignUp(a0);
    assert Run(a0, evs) == Run(a2, [Submit, Login]) by {
      assert evs == [OpenVocabDemo, VocabSignup] + [Submit, Login];
      RunAppend(a0, [OpenVocabDemo, VocabSignup], [Submit, Login]);
    }
    RunPair(a2, Submit, Login);
    SignInCompletes(a2, false);
  }

  lemma DemoThenSignUp(a0: App) returns (a2: App)
    requires a0.view == Landing
    ensures a2 == Run(a0, [OpenVocabDemo, VocabSignup])
    ensures a2.userLevel == "" && a2.view == AuthPage && !a2.authLoading
      && a2.authSource == Vocabulary && !a2.vocabDemoOpen
  {
    var a1 := Apply(a0, OpenVocabDemo);
    assert a1 == a0.(vocabDemoOpen := true);
    a2 := Apply(a1, VocabSignup);
    RunPair(a0, OpenVocabDemo, VocabSignup);
  }

  /** Signing out forgets the measured level: signing in again gives the default. */
  lemma SignOutForgetsLevel(a: App)
    requires a.view == DashboardPage && a.signOutOpen
    ensures var r := Run(a, [ConfirmSignOutEv, GetStarted, Submit, Login]);
      r.view == DashboardPage && !r.signOutOpen && DashboardLevel(r) == DefaultLevel
  {
    var evs := [ConfirmSignOutEv, GetStarted, Submit, Login];
    var a2 := SignOutThenSignUp(a);
    assert Run(a, evs) == Run(a2, [Submit, Login]) by {
      assert evs == [ConfirmSignOutEv, GetStarted] + [Submit, Login];
      RunAppend(a, [ConfirmSignOutEv, GetStarted], [Submit, Login]);
    }
    RunPair(a2, Submit, Login);
    SignInCompletes(a2, false);
  }

  lemma SignOutThenSignUp(a: App) returns (a2: App)
    requires a.view == DashboardPage && a.signOutOpen
    ensures a2 == Run(a, [ConfirmSignOutEv, GetStarted])
    ensures a2.view == AuthPage && a2.userLevel == "" && !a2.signOutOpen && !a2.authLoading
  {
    var a1 := Apply(a, ConfirmSignOutEv);
    assert a1.view == Landing && !a1.signOutOpen;
    a2 := Apply(a1, GetStarted);
    RunPair(a, ConfirmSignOutEv, GetStarted);
  }
}

=== FILE: cefr.dfy ===
/** The CEFR proficiency tiers of `types.ts` and their display labels. */
module Cefr {
  import opened Optional

  datatype Level = A1 | A2 | B1 | B2 | C1

  /** The string value of each `CEFRLevel` enum member. */
  function Label(l: Level): string {
    match l
    case A1 => "A1 (Beginner)"
    case A2 => "A2 (Elementary)"
    case B1 => "B1 (Intermediate)"
    case B2 => "B2 (Upper Intermediate)"
    case C1 => "C1 (Advanced)"
  }

  /** Position of a tier on the scale, A1 lowest. */
  function Rank(l: Level): nat {
    match l
    case A1 => 0
    case A2 => 1
    case B1 => 2
    case B2 => 3
    case C1 => 4
  }

  /** The set of strings that are `CEFRLevel` values. */
  const Labels: set<string> := {Label(A1), Label(A2), Label(B1), Label(B2), Label(C1)}

  /** Recognises an enum value from its string; any other string is not a level. */
  function Parse(s: string): (r: Option<Level>)
    ensures r.Some? ==> Label(r.value) == s
    ensures r.None? ==> s !in Labels
  {
    if s == Label(A1) then Some(A1)
    else if s == Label(A2) then Some(A2)
    else if s == Label(B1) then Some(B1)
    else if s == Label(B2) then Some(B2)
    else if s == Label(C1) then Some(C1)
    else None
  }

  /** Labels are distinct, so a level can be recovered from its label. */
  lemma ParseLabel(l: Level)
    ensures Parse(Label(l)) == Some(l)
    ensures Label(l) in Labels
  {
  }
}

=== FILE: dashboard.dfy ===
/** The bookkeeping of `components/Dashboard.tsx`: the lesson generator (its
    service call abstracted to a success or failure outcome), the daily video
    challenge and its progress figure, and the active video lesson, whose
    tracker is the `Mastery` view. */
module Dashboard {
  import opened Optional
  import Mastery

  datatype Word = Word(word: string, definition: string)

  datatype Generated = Generated(topic: string, cefrLevel: string, vocabulary: seq<Word>, shortStory: string)

  datatype Status = CompletedStatus | InProgress

  datatype Lesson = Lesson(
    id: string, topic: string, cefrLevel: string, date: string,
    status: Status, vocabulary: seq<Word>, shortStory: string)

  /** What the lesson service gave back; the call itself is not modelled. */
  datatype Outcome = Success(lesson: Generated) | Failure

  /** An open video lesson together with the state of its tracker, which is
      created fresh each time a lesson opens. */
  datatype Active = Active(lesson: Lesson, view: Mastery.View)

  datatype Board = Board(
    topic: string,
    loading: bool,
    currentLesson: Option<Generated>,
    active: Option<Active>,
    dailyProgress: int)

  const Initial: Board := Board("", false, None, None, 0)

  /** The daily goal is five words. */
  const DailyGoal: int := 5

  /** The mock watch history, by id and level. */
  const History: seq<Lesson> := [
    Lesson("1", "Coffee Culture", "B1", "2 hours ago", CompletedStatus, [], ""),
    Lesson("2", "Job Interview Tips", "B1", "Yesterday", InProgress, [], ""),
    Lesson("3", "Airport Navigation", "A2", "2 days ago", CompletedStatus, [], ""),
    Lesson("4", "Healthy Cooking", "B2", "3 days ago", CompletedStatus, [], "")
  ]

  // ------------------------------------------------------- generation

  /** First half of `handleGenerate`: with a topic, start loading and drop
      the lesson on screen; with no topic, do nothing. */
  function BeginGenerate(b: Board): (r: Board)
    ensures b.topic == "" ==> r == b
    ensures b.topic != "" ==> r.loading && r.currentLesson == None
    ensures r == b.(loading := r.loading, currentLesson := r.currentLesson)
  {
    if b.topic == "" then b else b.(loading := true, currentLesson := None)
  }

  /** Second half of `handleGenerate`, when the service call settles: the
      result on success, nothing on failure, and loading ends either way. */
  function EndGenerate(b: Board, outcome: Outcome): (r: Board)
    ensures !r.loading
    ensures outcome.Success? ==> r.currentLesson == Some(outcome.lesson)
    ensures outcome.Failure? ==> r.currentLesson == b.currentLesson
    ensures r == b.(loading := false, currentLesson := r.currentLesson)
  {
    match outcome
    case Success(l) => b.(loading := false, currentLesson := Some(l))
    case Failure => b.(loading := false)
  }

  /** `handleGenerate` from submission to settlement. */
  lemma GenerateWhole(b: Board, outcome: Outcome)
    ensures b.topic == "" ==> BeginGenerate(b) == b
    ensures b.topic != "" ==>
      var r := EndGenerate(BeginGenerate(b), outcome);
      && !r.loading
      && (outcome.Success? ==> r.currentLesson == Some(outcome.lesson))
      && (outcome.Failure? ==> r.currentLesson == None)
      && r.active == b.active && r.dailyProgress == b.dailyProgress && r.topic == b.topic
  {
  }

  // ------------------------------------------------------ video lessons

  /** The mock lesson `startDailyChallenge` builds; it carries the level. */
  function DailyLesson(cefrLevel: string): (l: Lesson)
    ensures l.id == "daily" && l.cefrLevel == cefrLevel && l.status == InProgress
  {
    Lesson("daily", "Resilience in Business", cefrLevel, "Today", InProgress, [], "")
  }

  /** Opening a lesson mounts a fresh tracker. */
  function Open(b: Board, l: Lesson): (r: Board)
    ensures r.active == Some(Active(l, Mastery.Initial))
    ensures r.dailyProgress == b.dailyProgress
    ensures r.topic == b.topic && r.loading == b.loading && r.currentLesson == b.currentLesson
  {
    b.(active := Some(Active(l, Mastery.Initial)))
  }

  /** The daily-challenge button: it starts the challenge only while the goal is open. */
  function DailyChallengeClick(b: Board, cefrLevel: string): (r: Board)
    ensures b.dailyProgress < DailyGoal ==>
      r.active.Some? && r.active.value.lesson.cefrLevel == cefrLevel && r.active.value.lesson.id == "daily"
    ensures b.dailyProgress < DailyGoal ==>
      r.active == Some(Active(DailyLesson(cefrLevel), Mastery.Initial)) && r.dailyProgress == b.dailyProgress
    ensures b.dailyProgress >= DailyGoal ==> r == b
    ensures r.topic == b.topic && r.loading == b.loading && r.currentLesson == b.currentLesson
  {
    if b.dailyProgress < DailyGoal then Open(b, DailyLesson(cefrLevel)) else b
  }

  /** `handleVideoLessonComplete`, for the daily lesson and history ones alike. */
  function VideoComplete(b: Board): (r: Board)
    ensures r.dailyProgress == DailyGoal && r.active == None
    ensures r == b.(dailyProgress := DailyGoal, active := None)
  {
    b.(dailyProgress := DailyGoal, active := None)
  }

  /** The lesson's back button. */
  function VideoBack(b: Board): (r: Board)
    ensures r.active == None && r.dailyProgress == b.dailyProgress
    ensures r == b.(active := None)
  {
    b.(active := None)
  }

  /** The "Words Learned" statistic: 47 once the daily goal is reached and
      42 before, on every board that keeps the invariant. */
  function WordsLearned(b: Board): (n: int)
    ensures Inv(b) ==> (n == 47 <==> b.dailyProgress == DailyGoal)
    ensures Inv(b) ==> (n == 42 <==> b.dailyProgress == 0)
  {
    42 + b.dailyProgress
  }

  // ------------------------------------------------------------- events

  datatype Event =
    | SetTopic(topic: string)
    | Submit
    | Settle(outcome: Outcome)
    | DailyClick
    | OpenHistory(k: int)
    | VideoEv(e: Mastery.Event)
    | Back
    | Collect

  /** While a lesson is open it fills the screen, so only its own events and
      the settling service call can arrive; the submit button is disabled
      while loading, and a call settles only while one is outstanding. The
      collect button is on the tracker's success view. */
  predicate Enabled(b: Board, e: Event) {
    match e
    case SetTopic(_) => b.active.None?
    case Submit => b.active.None? && !b.loading
    case Settle(_) => b.loading
    case DailyClick => b.active.None?
    case OpenHistory(k) => b.active.None? && 0 <= k < |History|
    case VideoEv(_) => b.active.Some?
    case Back => b.active.Some? && !Mastery.Mastered(b.active.value.view)
    case Collect => b.active.Some? && Mastery.Mastered(b.active.value.view)
  }

  /** One event; `cefrLevel` is the level the app passes down. */
  function Apply(b: Board, cefrLevel: string, e: Event): (r: Board)
    ensures !Enabled(b, e) ==> r == b
  {
    if !Enabled(b, e) then b
    else match e
      case SetTopic(t) => b.(topic := t)
      case Submit => BeginGenerate(b)
      case Settle(o) => EndGenerate(b, o)
      case DailyClick => DailyChallengeClick(b, cefrLevel)
      case OpenHistory(k) => Open(b, History[k])
      case VideoEv(ve) =>
        var a := b.active.value;
        b.(active := Some(a.(view := Mastery.Apply(a.view, ve))))
      case Back => VideoBack(b)
      case Collect => VideoComplete(b)
  }

  function Run(b: Board, cefrLevel: string, evs: seq<Event>): Board
    decreases |evs|
  {
    if evs == [] then b else Run(Apply(b, cefrLevel, evs[0]), cefrLevel, evs[1..])
  }

  /** Daily progress is either untouched or the full goal. */
  ghost predicate Inv(b: Board) {
    (b.dailyProgress == 0 || b.dailyProgress == DailyGoal)
    && (b.active.Some? ==> Mastery.Inv(b.active.value.view))
  }

  lemma {:induction false} RunInv(b: Board, cefrLevel: string, evs: seq<Event>)
    requires Inv(b)
    ensures Inv(Run(b, cefrLevel, evs))
    ensures WordsLearned(Run(b, cefrLevel, evs)) == 42 || WordsLearned(Run(b, cefrLevel, evs)) == 47
    decreases |evs|
  {
    if evs != [] {
      var e := evs[0];
      if Enabled(b, e) {
        match e
        case OpenHistory(_) => Mastery.InitialInv();
        case DailyClick => Mastery.InitialInv();
        case VideoEv(ve) => Mastery.ApplyInv(b.active.value.view, ve);
        case _ =>
      }
      RunInv(Apply(b, cefrLevel, e), cefrLevel, evs[1..]);
    }
  }

  /** The daily goal is reached only by collecting a lesson whose tracker
      has every task mastered. */
  lemma GoalOnlyByMastery(b: Board, cefrLevel: string, e: Event)
    requires b.dailyProgress != DailyGoal
    requires Apply(b, cefrLevel, e).dailyProgress == DailyGoal
    ensures e == Collect && b.active.Some?
    ensures Mastery.Mastered(b.active.value.view)
  {
  }

  /** Once reached, the goal disables the challenge button. */
  lemma {:induction false} GoalIsFinal(b: Board, cefrLevel: string, evs: seq<Event>)
    requires b.dailyProgress == DailyGoal
    ensures Run(b, cefrLevel, evs).dailyProgress == DailyGoal
    decreases |evs|
  {
    if evs != [] {
      RunGoalStep(b, cefrLevel, evs[0]);
      GoalIsFinal(Apply(b, cefrLevel, evs[0]), cefrLevel, evs[1..]);
    }
  }

  lemma RunGoalStep(b: Board, cefrLevel: string, e: Event)
    requires b.dailyProgress == DailyGoal
    ensures Apply(b, cefrLevel, e).dailyProgress == DailyGoal
    ensures e == DailyClick ==> Apply(b, cefrLevel, e) == b
  {
  }
}

=== FILE: mastery.dfy ===
/** The vocabulary mastery tracker of `components/VideoLessonView.tsx`: five
    fixed quiz tasks, at most one expanded, a simulated playback clock whose
    position selects the subtitle, and a success view once every task is
    mastered. The 500 ms auto-expand timer, the 1000 ms shake-clear timer and
    the 50 ms progress interval are explicit events. */
module Mastery {
  import opened Optional

  datatype Task = Task(id: int, word: string, context: string, question: string, options: seq<string>, correct: int)

  /** `getVocabularyTasks`, ordered by id. */
  const Tasks: seq<Task> := [
    Task(1, "Resilient",
      "To understand this deeply, we must be resilient in the face of adversity.",
      "Which situation best describes someone being 'Resilient'?",
      ["Quitting immediately when things get hard", "Recovering quickly from a difficult situation", "Complaining loudly about problems"], 1),
    Task(2, "Fatal",
      "Failure is not fatal: it is the courage to continue that counts.",
      "What is the meaning of 'Fatal' in this context?",
      ["Causing death or complete failure", "Full of happiness and joy", "Minor and unimportant"], 0),
    Task(3, "Alleviate",
      "Many people alleviate their stress by focusing on small goals.",
      "Select the synonym for 'Alleviate':",
      ["To worsen", "To make easier or less severe", "To ignore completely"], 1),
    Task(4, "Inevitably",
      "Inevitably, you will face challenges.",
      "If something is 'Inevitable', it is:",
      ["Certain to happen", "Rarely happening", "Avoidable"], 0),
    Task(5, "Endeavor",
      "Let's endeavor to make the most of every opportunity.",
      "To 'Endeavor' means to:",
      ["Give up", "Try hard to achieve something", "Wait for luck"], 1)
  ]

  /** The simulated video lasts 100 units; the clock advances 0.2 units per
      interval step, so it is counted here in ticks of 0.2 units. */
  const TicksPerUnit: int := 5
  const DurationTicks: int := 100 * TicksPerUnit

  /** A wrong option the learner picked, shown in red until the task is mastered. */
  datatype Mark = Mark(taskId: int, optionIndex: int)

  /** A scheduled one-shot timer. */
  datatype Timer = AutoExpand(id: int) | ShakeClear(id: int)

  /** The component's state. `wrongAttempts` holds the task ids currently
      shaking; `timers` holds the timers scheduled and not yet fired. */
  datatype View = View(
    videoStarted: bool,
    isPlaying: bool,
    progress: int,
    expanded: Option<int>,
    completed: seq<int>,
    wrongAttempts: seq<int>,
    wrongSelections: seq<Mark>,
    timers: multiset<Timer>)

  const Initial: View := View(false, false, 0, None, [], [], [], multiset{})

  /** The columns of `Tasks` the tracker reads: the ids in list order, the
      correct option of each card, and the number of options on a card. */
  const TaskCount: int := 5
  const Ids: seq<int> := [1, 2, 3, 4, 5]
  const Key: seq<int> := [1, 0, 1, 0, 1]
  const OptionCount: int := 3

  /** The columns agree with the table; in particular the id of the card at
      position `k` is `k + 1`. */
  lemma ColumnsMatchTable()
    ensures |Tasks| == |Ids| == |Key| == TaskCount
    ensures forall k :: 0 <= k < TaskCount ==>
      Tasks[k].id == Ids[k] == k + 1 && Tasks[k].correct == Key[k] && |Tasks[k].options| == OptionCount
  {
  }

  predicate IsTaskId(id: int) {
    1 <= id <= TaskCount
  }

  /** The `correct` field of the card with this id. */
  function CorrectOf(id: int): (c: int)
    requires IsTaskId(id)
    ensures 0 <= c < OptionCount
  {
    Key[id - 1]
  }

  predicate NoDup(xs: seq<int>) {
    forall i, j :: 0 <= i < j < |xs| ==> xs[i] != xs[j]
  }

  // ------------------------------------------------------ list helpers

  /** `xs.filter(x => x !== id)`. */
  function RemoveId(xs: seq<int>, id: int): (r: seq<int>)
    ensures forall x :: x in r <==> x in xs && x != id
    ensures |r| <= |xs|
  {
    if xs == [] then []
    else if xs[0] == id then RemoveId(xs[1..], id)
    else [xs[0]] + RemoveId(xs[1..], id)
  }

  /** `selections.filter(m => m.taskId !== id)`. */
  function RemoveMarks(ms: seq<Mark>, id: int): (r: seq<Mark>)
    ensures forall m :: m in r <==> m in ms && m.taskId != id
    ensures |r| <= |ms|
  {
    if ms == [] then []
    else if ms[0].taskId == id then RemoveMarks(ms[1..], id)
    else [ms[0]] + RemoveMarks(ms[1..], id)
  }

  /** The auto-advance candidate test of `tasks.find`. */
  predicate Follows(id: int, after: int, completed: seq<int>) {
    id > after && id !in completed
  }

  /** The position of the first id at or after `from` that `Follows`. */
  function FindFrom(ids: seq<int>, after: int, completed: seq<int>, from: nat): (r: Option<nat>)
    requires from <= |ids|
    ensures r.Some? ==>
      from <= r.value < |ids| && Follows(ids[r.value], after, completed)
      && forall j :: from <= j < r.value ==> !Follows(ids[j], after, completed)
    ensures r.None? ==> forall j :: from <= j < |ids| ==> !Follows(ids[j], after, completed)
    decreases |ids| - from
  {
    if from == |ids| then None
    else if Follows(ids[from], after, completed) then Some(from)
    else FindFrom(ids, after, completed, from + 1)
  }

  /** The task to auto-expand after `after` is answered: the first card in
      list order with a larger id that is not complete, if any. */
  function NextIncomplete(after: int, completed: seq<int>): (r: Option<int>)
    ensures r.Some? ==>
      && IsTaskId(r.value) && r.value == Ids[r.value - 1]
      && r.value > after && r.value !in completed
      && forall k :: 0 <= k < r.value - 1 ==> !Follows(Ids[k], after, completed)
    ensures r.None? ==> forall k :: 0 <= k < TaskCount ==> !Follows(Ids[k], after, completed)
  {
    match FindFrom(Ids, after, completed, 0)
    case None => None
    case Some(k) => Some(Ids[k])
  }

  // ---------------------------------------------------- subtitle index

  /** `Math.min(Math.floor((p / d) * n), n - 1)` for a non-negative position:
      the largest index whose segment starts at or before `p`. */
  function SubtitleIndex(p: int, d: int, n: int): (k: int)
    requires p >= 0 && d > 0 && n > 0
    ensures 0 <= k < n
    ensures k * d <= p * n
    ensures k == n - 1 || p * n < (k + 1) * d
  {
    var q := p * n / d;
    assert q * d <= p * n < (q + 1) * d by {
      assert p * n == d * q + (p * n) % d;
    }
    if q < n - 1 then q
    else
      assert (n - 1) * d <= q * d by { MulMono(n - 1, q, d); }
      n - 1
  }

  lemma MulMono(a: int, b: int, d: int)
    requires a <= b && d > 0
    ensures a * d <= b * d
  {
    assert b * d - a * d == (b - a) * d;
  }

  /** A later position never shows an earlier subtitle. */
  lemma SubtitleIndexMonotone(p1: int, p2: int, d: int, n: int)
    requires 0 <= p1 <= p2 && d > 0 && n > 0
    ensures SubtitleIndex(p1, d, n) <= SubtitleIndex(p2, d, n)
  {
    var k1 := SubtitleIndex(p1, d, n);
    var k2 := SubtitleIndex(p2, d, n);
    if k1 > k2 {
      MulMono(k2 + 1, k1, d);
      MulMono(p1, p2, n);
      assert false;
    }
  }

  lemma SubtitleExample()
    ensures SubtitleIndex(40, 100, 5) == 2
    ensures SubtitleIndex(40 * TicksPerUnit, DurationTicks, TaskCount) == 2
  {
  }

  /** `currentTaskIndex`: the task whose context sentence is the subtitle. */
  function CurrentTaskIndex(v: View): (k: int)
    ensures 0 <= k < TaskCount
  {
    SubtitleIndex(if v.progress < 0 then 0 else v.progress, DurationTicks, TaskCount)
  }

  // -------------------------------------------------------- transitions

  /** `toggleTaskExpansion`. */
  function Toggle(v: View, id: int): (r: View)
    ensures id in v.completed ==> r == v
    ensures id !in v.completed ==> (r.expanded == Some(id) <==> v.expanded != Some(id))
    ensures id !in v.completed ==> r.expanded == None || r.expanded == Some(id)
    ensures r == v.(expanded := r.expanded)
  {
    if id in v.completed then v
    else v.(expanded := if v.expanded == Some(id) then None else Some(id))
  }

  /** Toggling the same open-able card twice restores the expansion state,
      so from collapsed it ends collapsed. */
  lemma ToggleTwice(v: View, id: int)
    requires v.expanded == None || v.expanded == Some(id)
    ensures Toggle(Toggle(v, id), id) == v
  {
  }

  /** `handleAnswer`: `correctIndex` is the rendered task's `correct`. */
  function Answer(v: View, taskId: int, option: int, correctIndex: int): (r: View)
    ensures option == correctIndex ==>
      && r.completed == v.completed + [taskId]
      && r.expanded == None
      && (forall m :: m in r.wrongSelections <==> m in v.wrongSelections && m.taskId != taskId)
      && r.wrongAttempts == v.wrongAttempts
      && r.timers == v.timers + (match NextIncomplete(taskId, v.completed)
                                 case Some(n) => multiset{AutoExpand(n)}
                                 case None => multiset{})
    ensures option != correctIndex ==>
      && r.completed == v.completed
      && r.expanded == v.expanded
      && r.wrongSelections == v.wrongSelections + [Mark(taskId, option)]
      && r.wrongAttempts == v.wrongAttempts + [taskId]
      && r.timers == v.timers + multiset{ShakeClear(taskId)}
    ensures r.videoStarted == v.videoStarted && r.isPlaying == v.isPlaying && r.progress == v.progress
  {
    if option == correctIndex then
      var next := NextIncomplete(taskId, v.completed);
      v.(completed := v.completed + [taskId],
         expanded := None,
         wrongSelections := RemoveMarks(v.wrongSelections, taskId),
         timers := v.timers + (match next case Some(n) => multiset{AutoExpand(n)} case None => multiset{}))
    else
      v.(wrongAttempts := v.wrongAttempts + [taskId],
         wrongSelections := v.wrongSelections + [Mark(taskId, option)],
         timers := v.timers + multiset{ShakeClear(taskId)})
  }

  /** A scheduled timer fires. The auto-expand callback sets the expanded id
      without looking at completion; the shake-clear callback stops every
      shake of its task. */
  function Fire(v: View, t: Timer): (r: View)
    requires t in v.timers
    ensures r.timers == v.timers - multiset{t}
    ensures t.AutoExpand? ==> r.expanded == Some(t.id) && r.wrongAttempts == v.wrongAttempts
    ensures t.ShakeClear? ==>
      r.expanded == v.expanded && forall x :: x in r.wrongAttempts <==> x in v.wrongAttempts && x != t.id
    ensures r.completed == v.completed && r.wrongSelections == v.wrongSelections
    ensures r.progress == v.progress && r.isPlaying == v.isPlaying && r.videoStarted == v.videoStarted
  {
    var w := v.(timers := v.timers - multiset{t});
    match t
    case AutoExpand(id) => w.(expanded := Some(id))
    case ShakeClear(id) => w.(wrongAttempts := RemoveId(v.wrongAttempts, id))
  }

  /** One step of the progress interval: advance, or clamp at the end and stop. */
  function Tick(v: View): (r: View)
    ensures v.progress >= DurationTicks ==> r.progress == DurationTicks && !r.isPlaying
    ensures v.progress < DurationTicks ==> r.progress == v.progress + 1 && r.isPlaying == v.isPlaying
    ensures v.progress <= DurationTicks ==> r.progress <= DurationTicks
    ensures r == v.(progress := r.progress, isPlaying := r.isPlaying)
  {
    if v.progress >= DurationTicks then v.(isPlaying := false, progress := DurationTicks)
    else v.(progress := v.progress + 1)
  }

  /** `handlePlayClick`. */
  function PlayClick(v: View): (r: View)
    ensures r.videoStarted
    ensures r.isPlaying == !v.isPlaying
    ensures v.progress >= DurationTicks ==> r.progress == 0
    ensures v.progress < DurationTicks ==> r.progress == v.progress
    ensures r == v.(videoStarted := true, isPlaying := r.isPlaying, progress := r.progress)
  {
    v.(videoStarted := true,
       progress := if v.progress >= DurationTicks then 0 else v.progress,
       isPlaying := !v.isPlaying)
  }

  /** Clicking the highlighted subtitle word: pause and expand the task the
      subtitle belongs to. Unlike `Toggle` it does not check completion. */
  function SubtitleClick(v: View): (r: View)
    ensures !r.isPlaying
    ensures r.expanded == Some(Ids[CurrentTaskIndex(v)])
    ensures r == v.(isPlaying := false, expanded := r.expanded)
  {
    v.(isPlaying := false, expanded := Some(Ids[CurrentTaskIndex(v)]))
  }

  /** The success view replaces the lesson once every task is complete. */
  predicate Mastered(v: View) {
    |v.completed| == TaskCount
  }

  /** A task's quiz is on screen only while it is expanded and not complete. */
  predicate QuizVisible(v: View, id: int) {
    v.expanded == Some(id) && id !in v.completed
  }

  // ------------------------------------------------------------- events

  datatype Event =
    | ToggleEv(id: int)
    | AnswerEv(taskId: int, option: int)
    | PlayEv
    | SubtitleEv
    | TickEv
    | FireEv(timer: Timer)

  /** What the rendered view can deliver. The lesson view (cards, quiz,
      controls) is shown only before mastery; options are offered only inside
      a visible quiz; the subtitle only once the video has started; the
      interval runs while playing; a timer fires only once scheduled. */
  predicate Enabled(v: View, e: Event) {
    match e
    case ToggleEv(id) => !Mastered(v) && IsTaskId(id)
    case AnswerEv(t, o) =>
      !Mastered(v) && IsTaskId(t) && QuizVisible(v, t) && 0 <= o < OptionCount
    case PlayEv => !Mastered(v)
    case SubtitleEv => !Mastered(v) && v.videoStarted
    case TickEv => v.isPlaying
    case FireEv(t) => t in v.timers
  }

  function Apply(v: View, e: Event): (r: View)
    ensures !Enabled(v, e) ==> r == v
  {
    if !Enabled(v, e) then v
    else match e
      case ToggleEv(id) => Toggle(v, id)
      case AnswerEv(t, o) => Answer(v, t, o, CorrectOf(t))
      case PlayEv => PlayClick(v)
      case SubtitleEv => SubtitleClick(v)
      case TickEv => Tick(v)
      case FireEv(t) => Fire(v, t)
  }

  function Run(v: View, evs: seq<Event>): View
    decreases |evs|
  {
    if evs == [] then v else Run(Apply(v, evs[0]), evs[1..])
  }

  // ---------------------------------------------------------- invariant

  /** What holds in every view the lesson can reach. */
  ghost predicate Inv(v: View) {
    && NoDup(v.completed)
    && (forall i :: 0 <= i < |v.completed| ==> IsTaskId(v.completed[i]))
    && 0 <= v.progress <= DurationTicks
    && (v.expanded.Some? ==> IsTaskId(v.expanded.value))
    && (forall t :: t in v.timers && t.AutoExpand? ==> IsTaskId(t.id))
    && (forall m :: m in v.wrongSelections ==> m.taskId !in v.completed)
  }

  lemma InitialInv()
    ensures Inv(Initial)
  {
  }

  /** Appending a task that is not yet complete keeps the list duplicate-free. */
  lemma AppendNoDup(xs: seq<int>, x: int)
    requires NoDup(xs) && x !in xs
    ensures NoDup(xs + [x])
  {
    var ys := xs + [x];
    forall i, j | 0 <= i < j < |ys| ensures ys[i] != ys[j] {
      if j == |xs| {
        assert ys[i] == xs[i];
      }
    }
  }

  /** An offered answer keeps the invariant. */
  lemma AnswerInv(v: View, t: int, o: int)
    requires Inv(v) && Enabled(v, AnswerEv(t, o))
    ensures Inv(Answer(v, t, o, CorrectOf(t)))
  {
    if o == CorrectOf(t) {
      AppendNoDup(v.completed, t);
    }
  }

  lemma ApplyInv(v: View, e: Event)
    requires Inv(v)
    ensures Inv(Apply(v, e))
  {
    if Enabled(v, e) {
      match e
      case AnswerEv(t, o) => AnswerInv(v, t, o);
      case _ =>
    }
  }

  /** Running a sequence and then one more event is running the longer sequence. */
  lemma {:induction false} RunSnoc(v: View, evs: seq<Event>, e: Event)
    ensures Run(v, evs + [e]) == Apply(Run(v, evs), e)
    decreases |evs|
  {
    if evs == [] {
      assert [e][1..] == [];
    } else {
      assert (evs + [e])[1..] == evs[1..] + [e];
      RunSnoc(Apply(v, evs[0]), evs[1..], e);
    }
  }

  lemma {:induction false} RunInv(v: View, evs: seq<Event>)
    requires Inv(v)
    ensures Inv(Run(v, evs))
    decreases |evs|
  {
    if evs != [] {
      ApplyInv(v, evs[0]);
      RunInv(Apply(v, evs[0]), evs[1..]);
    }
  }

  /** Completed tasks are only ever appended: the list before any run is a
      prefix of the list after it, so no task is ever un-mastered. */
  lemma {:induction false} RunGrows(v: View, evs: seq<Event>)
    ensures var r := Run(v, evs);
      |v.completed| <= |r.completed| && r.completed[..|v.completed|] == v.completed
    decreases |evs|
  {
    if evs != [] {
      var w := Apply(v, evs[0]);
      assert |v.completed| <= |w.completed| && w.completed[..|v.completed|] == v.completed;
      RunGrows(w, evs[1..]);
      var r := Run(w, evs[1..]);
      assert r.completed[..|v.completed|] == r.completed[..|w.completed|][..|v.completed|];
    }
  }

  /** A wrong-option mark stays until its task is answered correctly: while
      the task is not complete at the end of a run, the mark is still there. */
  lemma {:induction false} MarkSticky(v: View, evs: seq<Event>, m: Mark)
    requires m in v.wrongSelections
    requires m.taskId !in Run(v, evs).completed
    ensures m in Run(v, evs).wrongSelections
    decreases |evs|
  {
    if evs != [] {
      var w := Apply(v, evs[0]);
      RunGrows(w, evs[1..]);
      var r := Run(w, evs[1..]);
      assert r.completed[..|w.completed|] == w.completed;
      assert m.taskId !in w.completed;
      assert m in w.wrongSelections;
      MarkSticky(w, evs[1..], m);
    }
  }

  /** Distinct elements: the list is as long as the set it spans. */
  lemma {:induction false} NoDupCard(xs: seq<int>)
    requires NoDup(xs)
    ensures |set x | x in xs| == |xs|
  {
    if xs != [] {
      var tail := xs[1..];
      assert NoDup(tail);
      NoDupCard(tail);
      assert (set x | x in xs) == (set x | x in tail) + {xs[0]};
      assert xs[0] !in tail;
    }
  }

  lemma SubsetSize(a: set<int>, b: set<int>)
    requires a <= b
    ensures |b| == |a| + |b - a|
  {
    assert b == a + (b - a);
  }

  /** The set of ids a list of task ids spans. */
  lemma SpanWithinIds(xs: seq<int>)
    requires forall i :: 0 <= i < |xs| ==> IsTaskId(xs[i])
    ensures (set x | x in xs) <= {1, 2, 3, 4, 5}
  {
    forall x | x in xs ensures x in {1, 2, 3, 4, 5} {
      var i :| 0 <= i < |xs| && xs[i] == x;
      assert IsTaskId(xs[i]);
    }
  }

  /** A set of ids with five members is all of them. */
  lemma FiveIsAll(s: set<int>)
    requires s <= {1, 2, 3, 4, 5} && |s| == 5
    ensures s == {1, 2, 3, 4, 5}
  {
    var ids: set<int> := {1, 2, 3, 4, 5};
    SubsetSize(s, ids);
    assert |ids - s| == 0;
  }

  /** A duplicate-free list of task ids has all five exactly when it covers
      every id. */
  lemma FullIffCovers(xs: seq<int>)
    requires NoDup(xs)
    requires forall i :: 0 <= i < |xs| ==> IsTaskId(xs[i])
    ensures |xs| == TaskCount <==> forall id :: IsTaskId(id) ==> id in xs
  {
    var s := set x | x in xs;
    NoDupCard(xs);
    SpanWithinIds(xs);
    if |xs| == TaskCount {
      FiveIsAll(s);
      forall id | IsTaskId(id) ensures id in xs {
        assert id in s;
      }
    }
    if forall id :: IsTaskId(id) ==> id in xs {
      assert {1, 2, 3, 4, 5} <= s by {
        forall id | id in {1, 2, 3, 4, 5} ensures id in s {
          assert IsTaskId(id);
        }
      }
      assert s == {1, 2, 3, 4, 5};
    }
  }

  /** The success view shows exactly when every task id is among the
      completed ones. */
  lemma MasteredIffAllComplete(v: View)
    requires Inv(v)
    ensures Mastered(v) <==> forall id :: IsTaskId(id) ==> id in v.completed
  {
    FullIffCovers(v.completed);
  }

  /** Answering an already completed task changes nothing: the quiz is gone. */
  lemma AnswerCompletedIsNoOp(v: View, taskId: int, option: int)
    requires taskId in v.completed
    ensures Apply(v, AnswerEv(taskId, option)) == v
  {
  }

  /** Three attempts at task 3 of a fresh list: two wrong options, then the
      right one. The wrong marks stay while the task is open and go with the
      correct answer, which schedules task 4 to open next. */
  lemma ScenarioRetry(v: View)
    requires v.completed == [] && v.expanded == None && v.wrongSelections == []
    ensures var v1 := Apply(Apply(Apply(v, ToggleEv(3)), AnswerEv(3, 0)), AnswerEv(3, 2));
      && v1.completed == [] && v1.expanded == Some(3) && v1.wrongSelections == [Mark(3, 0), Mark(3, 2)]
      && var v2 := Apply(v1, AnswerEv(3, 1));
      v2.completed == [3] && v2.expanded == None && v2.wrongSelections == [] && AutoExpand(4) in v2.timers
  {
    OpenStep(v);
    var w1 := Apply(v, ToggleEv(3));
    MissStep(w1, 0);
    var w2 := Apply(w1, AnswerEv(3, 0));
    MissStep(w2, 2);
    RetryHit(Apply(w2, AnswerEv(3, 2)));
  }

  /** Opening task 3 of a fresh list. */
  lemma OpenStep(v: View)
    requires v.completed == [] && v.expanded == None
    ensures Apply(v, ToggleEv(3)) == v.(expanded := Some(3))
  {
  }

  /** A wrong option on open task 3 leaves it open and adds its mark. */
  lemma MissStep(v: View, o: int)
    requires v.completed == [] && v.expanded == Some(3) && (o == 0 || o == 2)
    ensures var w := Apply(v, AnswerEv(3, o));
      w.completed == [] && w.expanded == Some(3) && w.wrongSelections == v.wrongSelections + [Mark(3, o)]
  {
  }

  /** The right option on open task 3 completes it. */
  lemma RetryHit(v: View)
    requires v.expanded == Some(3) && v.completed == [] && v.wrongSelections == [Mark(3, 0), Mark(3, 2)]
    ensures var w := Apply(v, AnswerEv(3, 1));
      w.completed == [3] && w.expanded == None && w.wrongSelections == [] && AutoExpand(4) in w.timers
  {
    assert NextIncomplete(3, []) == Some(4);
    assert RemoveMarks(v.wrongSelections, 3) == [];
  }

  /** The subtitle word reopens a completed task: the expanded id then names
      a mastered task, whose quiz stays hidden, while its header toggle would
      have been ignored. */
  lemma SubtitleExpandsCompleted()
    ensures var v := Run(Initial, [PlayEv, ToggleEv(1), AnswerEv(1, 1), SubtitleEv]);
      v.expanded == Some(1) && 1 in v.completed && !QuizVisible(v, 1)
      && Toggle(v, 1) == v
  {
  }
}

=== FILE: optional.dfy ===
/** The optional value used wherever the components hold `T | null`. */
module Optional {

  datatype Option<+T> = None | Some(value: T)

}

=== FILE: placement.dfy ===
/** The placement test of `components/PlacementTestModal.tsx`: four fixed
    multiple-choice questions, a running score, and the tier staircase that
    turns the final score into a CEFR label. The 1500 ms analyzing timer is an
    explicit event that is enabled only while such a timer is scheduled. */
module Placement {
  import Cefr
  import opened Optional

  datatype Step = Intro | Question | Analyzing | Result

  datatype Item = Item(id: int, targetWord: string, level: string, options: seq<string>, correct: int)

  /** The `questions` table. */
  const Questions: seq<Item> := [
    Item(1, "Journey", "A2",
      ["A long trip from one place to another", "To cook food in an oven", "A very loud noise", "Writing on paper"], 0),
    Item(2, "Reluctant", "B1",
      ["Eager and excited", "Unwilling and hesitant", "Fast and efficient", "Smooth and shiny"], 1),
    Item(3, "Precise", "B2",
      ["Vague or unclear", "Large in size", "Exact and accurate", "Expensive to buy"], 2),
    Item(4, "Inevitably", "C1",
      ["By pure luck", "Certain to happen", "Rarely occurring", "With great difficulty"], 1)
  ]

  /** The columns of `Questions` the test reads: the correct option of each
      question and the number of options on a question. */
  const QuestionCount: int := 4
  const AnswerKey: seq<int> := [0, 1, 2, 1]
  const OptionCount: int := 4

  /** The columns agree with the table. */
  lemma ColumnsMatchTable()
    ensures |Questions| == |AnswerKey| == QuestionCount
    ensures forall k :: 0 <= k < QuestionCount ==>
      Questions[k].correct == AnswerKey[k] && |Questions[k].options| == OptionCount
  {
  }

  const LastIndex: int := QuestionCount - 1

  /** The component's state. `pendingAnalyze` counts analyzing timers that
      have been scheduled and have not fired yet. */
  datatype Session = Session(step: Step, index: int, answers: seq<int>, score: int, pendingAnalyze: nat)

  const Initial: Session := Session(Intro, 0, [], 0, 0)

  /** Number of answers that hit the correct option of the question at the same position. */
  function CorrectCount(answers: seq<int>): (n: nat)
    requires |answers| <= QuestionCount
    ensures n <= |answers|
  {
    if answers == [] then 0
    else
      var k := |answers| - 1;
      CorrectCount(answers[..k]) + (if answers[k] == AnswerKey[k] then 1 else 0)
  }

  // ---------------------------------------------------------------- tiers

  /** Tier staircase of `getCalculatedLevel`. Its rank is the score clamped to
      [1, 4], so A1 is never produced and higher scores never give lower tiers. */
  function Tier(score: int): (l: Cefr.Level)
    ensures Cefr.Rank(l) == if score <= 1 then 1 else if score >= 4 then 4 else score
    ensures l != Cefr.A1
  {
    if score <= 1 then Cefr.A2
    else if score == 2 then Cefr.B1
    else if score == 3 then Cefr.B2
    else Cefr.C1
  }

  /** The label string the component reports for a score. */
  function CalculatedLevel(score: int): (r: string)
    ensures r in Cefr.Labels
    ensures r != Cefr.Label(Cefr.A1)
    ensures Cefr.Parse(r) == Some(Tier(score))
  {
    Cefr.ParseLabel(Tier(score));
    Cefr.Label(Tier(score))
  }

  /** The tier never decreases when the score grows. */
  lemma TierMonotone(a: int, b: int)
    requires a <= b
    ensures Cefr.Rank(Tier(a)) <= Cefr.Rank(Tier(b))
  {
  }

  /** The staircase spelled out for every possible score of four questions. */
  lemma TierTable()
    ensures CalculatedLevel(0) == "A2 (Elementary)"
    ensures CalculatedLevel(1) == "A2 (Elementary)"
    ensures CalculatedLevel(2) == "B1 (Intermediate)"
    ensures CalculatedLevel(3) == "B2 (Upper Intermediate)"
    ensures CalculatedLevel(4) == "C1 (Advanced)"
  {
  }

  // ---------------------------------------------------------- transitions

  /** `handleStart`: show the questions. */
  function Start(s: Session): (r: Session)
    ensures r.step == Question
    ensures r.index == s.index && r.answers == s.answers && r.score == s.score
    ensures r.pendingAnalyze == s.pendingAnalyze
  {
    s.(step := Question)
  }

  /** `handleAnswer`: score, record, and move on or start analyzing. The
      source reads `questions[currentQIndex]`, so the index must be in range. */
  function Answer(s: Session, option: int): (r: Session)
    requires 0 <= s.index < QuestionCount
    ensures r.score == s.score + 1 <==> option == AnswerKey[s.index]
    ensures option != AnswerKey[s.index] ==> r.score == s.score
    ensures r.answers == s.answers + [option]
    ensures s.index < LastIndex ==>
      r.index == s.index + 1 && r.step == s.step && r.pendingAnalyze == s.pendingAnalyze
    ensures s.index == LastIndex ==>
      r.index == s.index && r.step == Analyzing && r.pendingAnalyze == s.pendingAnalyze + 1
    ensures 0 <= r.index < QuestionCount
  {
    var newScore := if option == AnswerKey[s.index] then s.score + 1 else s.score;
    var t := s.(score := newScore, answers := s.answers + [option]);
    if s.index < LastIndex then t.(index := s.index + 1)
    else t.(step := Analyzing, pendingAnalyze := s.pendingAnalyze + 1)
  }

  /** The analyzing timer fires: it sets the result step whatever the step is. */
  function AnalyzeDone(s: Session): (r: Session)
    requires s.pendingAnalyze > 0
    ensures r.step == Result
    ensures r.pendingAnalyze == s.pendingAnalyze - 1
    ensures r.index == s.index && r.answers == s.answers && r.score == s.score
  {
    s.(step := Result, pendingAnalyze := s.pendingAnalyze - 1)
  }

  /** `handleFinish`: the tier handed to `onComplete`; the session itself is
      left as it is. */
  function Finish(s: Session): (tier: string)
    ensures tier in Cefr.Labels
    ensures Cefr.Parse(tier) == Some(Tier(s.score))
  {
    CalculatedLevel(s.score)
  }

  /** `reset` as written: the accumulators are cleared but the analyzing
      timer already scheduled is not cancelled. */
  function ResetAsWritten(s: Session): (r: Session)
    ensures r.step == Intro && r.index == 0 && r.answers == [] && r.score == 0
    ensures r.pendingAnalyze == s.pendingAnalyze
  {
    Session(Intro, 0, [], 0, s.pendingAnalyze)
  }

  /** `reset` with the evidently intended effect: closing the modal also
      discards the pending analyzing timer. */
  function Reset(s: Session): (r: Session)
    ensures r.step == Intro && r.index == 0 && r.answers == [] && r.score == 0
    ensures r.pendingAnalyze == 0
  {
    Initial
  }

  // --------------------------------------------------------------- events

  datatype Event = StartEv | AnswerEv(option: int) | AnalyzeDoneEv | FinishEv | ResetEv

  /** Which events the modal can deliver: a button is only clickable while
      its step is rendered, a timer only fires once scheduled, and the close
      button and backdrop are always there. */
  predicate Enabled(s: Session, e: Event) {
    match e
    case StartEv => s.step == Intro
    case AnswerEv(o) =>
      s.step == Question && 0 <= s.index < QuestionCount && 0 <= o < OptionCount
    case AnalyzeDoneEv => s.pendingAnalyze > 0
    case FinishEv => s.step == Result
    case ResetEv => true
  }

  /** One event; an event that is not enabled changes nothing. Finishing
      only hands the tier to the caller, and closing always starts over. */
  function Apply(s: Session, e: Event): (r: Session)
    ensures !Enabled(s, e) ==> r == s
    ensures e == FinishEv ==> r == s
    ensures e == ResetEv ==> r == Initial
  {
    if !Enabled(s, e) then s
    else match e
      case StartEv => Start(s)
      case AnswerEv(o) => Answer(s, o)
      case AnalyzeDoneEv => AnalyzeDone(s)
      case FinishEv => s
      case ResetEv => Reset(s)
  }

  function Run(s: Session, evs: seq<Event>): Session
    decreases |evs|
  {
    if evs == [] then s else Run(Apply(s, evs[0]), evs[1..])
  }

  /** The same machine with `reset` as written. */
  function ApplyAsWritten(s: Session, e: Event): (r: Session)
    ensures e != ResetEv ==> r == Apply(s, e)
    ensures e == ResetEv ==> r.pendingAnalyze == s.pendingAnalyze
    ensures e == ResetEv ==> r == Reset(s).(pendingAnalyze := s.pendingAnalyze)
  {
    if e == ResetEv then ResetAsWritten(s) else Apply(s, e)
  }

  function RunAsWritten(s: Session, evs: seq<Event>): Session
    decreases |evs|
  {
    if evs == [] then s else RunAsWritten(ApplyAsWritten(s, evs[0]), evs[1..])
  }

  // ------------------------------------------------------------ invariant

  /** What holds in every session the modal can reach. */
  ghost predicate Inv(s: Session) {
    && 0 <= s.index < QuestionCount
    && |s.answers| <= QuestionCount
    && s.score == CorrectCount(s.answers)
    && (s.step == Intro ==> s.index == 0 && s.answers == [])
    && (s.step == Question ==> |s.answers| == s.index)
    && (s.step == Analyzing ==> s.index == LastIndex && |s.answers| == QuestionCount && s.pendingAnalyze == 1)
    && (s.step == Result ==> s.index == LastIndex && |s.answers| == QuestionCount)
    && (s.step != Analyzing ==> s.pendingAnalyze == 0)
  }

  lemma InitialInv()
    ensures Inv(Initial)
  {
  }

  /** An answer in the question step keeps the score equal to the number of
      correct answers so far. */
  lemma AnswerCounts(s: Session, option: int)
    requires 0 <= s.index < QuestionCount && |s.answers| == s.index
    requires s.score == CorrectCount(s.answers)
    ensures Answer(s, option).score == CorrectCount(s.answers + [option])
  {
    var a := s.answers + [option];
    assert a[..|a| - 1] == s.answers;
  }

  /** Every enabled event keeps the invariant. */
  lemma ApplyInv(s: Session, e: Event)
    requires Inv(s)
    ensures Inv(Apply(s, e))
  {
    if Enabled(s, e) && e.AnswerEv? {
      AnswerCounts(s, e.option);
    }
  }

  /** Any event sequence keeps the invariant, so in particular
      `score <= |answers| <= 4` and `questions[index]` is always defined. */
  lemma {:induction false} RunInv(s: Session, evs: seq<Event>)
    requires Inv(s)
    ensures Inv(Run(s, evs))
    ensures Run(s, evs).score <= |Run(s, evs).answers| <= QuestionCount
    decreases |evs|
  {
    if evs != [] {
      ApplyInv(s, evs[0]);
      RunInv(Apply(s, evs[0]), evs[1..]);
    }
  }

  /** What still holds with `reset` as written: a stale timer can move any
      step to the result step, so the coupling of the step with the timer
      and the four answers of the result step are gone, but the answers, the
      score and the current question stay consistent. */
  ghost predicate AsWrittenInv(s: Session) {
    && 0 <= s.index < QuestionCount
    && |s.answers| <= QuestionCount
    && s.score == CorrectCount(s.answers)
    && (s.step == Intro ==> s.index == 0 && s.answers == [])
    && (s.step == Question ==> |s.answers| == s.index)
    && (s.step == Analyzing ==> s.index == LastIndex && |s.answers| == QuestionCount)
  }

  /** Every event of the as-written machine keeps the weaker invariant. */
  lemma ApplyAsWrittenInv(s: Session, e: Event)
    requires AsWrittenInv(s)
    ensures AsWrittenInv(ApplyAsWritten(s, e))
  {
    if Enabled(s, e) && e.AnswerEv? {
      AnswerCounts(s, e.option);
    }
  }

  /** With `reset` as written too, any event sequence keeps
      `score <= |answers| <= 4` and `questions[index]` defined. */
  lemma {:induction false} RunAsWrittenInv(s: Session, evs: seq<Event>)
    requires AsWrittenInv(s)
    ensures AsWrittenInv(RunAsWritten(s, evs))
    ensures RunAsWritten(s, evs).score <= |RunAsWritten(s, evs).answers| <= QuestionCount
    ensures 0 <= RunAsWritten(s, evs).index < QuestionCount
    decreases |evs|
  {
    if evs != [] {
      ApplyAsWrittenInv(s, evs[0]);
      RunAsWrittenInv(ApplyAsWritten(s, evs[0]), evs[1..]);
    }
  }

  /** The analyzing step is left only through the timer: no other enabled
      event moves it, except closing the modal. */
  lemma AnalyzingExits(s: Session, e: Event)
    requires Inv(s) && s.step == Analyzing
    requires e != ResetEv
    ensures Apply(s, e).step != Analyzing <==> e == AnalyzeDoneEv
    ensures Apply(s, e).step != Analyzing ==> Apply(s, e).step == Result
  {
  }

  /** A reached result always reports the tier of the four answers given. */
  lemma {:induction false} ResultReportsAnswers(evs: seq<Event>)
    ensures var s := Run(Initial, evs);
      s.step == Result ==>
        |s.answers| == QuestionCount && Finish(s) == CalculatedLevel(CorrectCount(s.answers))
  {
    InitialInv();
    RunInv(Initial, evs);
  }

  /** A session showing the intro with nothing answered and no timer
      pending, as the modal is when first opened. */
  predicate Fresh(s: Session) {
    s.step == Intro && s.index == 0 && s.answers == [] && s.score == 0 && s.pendingAnalyze == 0
  }

  /** With `reset` as written, answering all four questions (even all of
      them correctly) and closing the modal while it analyzes lets the stale
      timer put the empty session into the result step, which then reports
      the lowest tier. */
  lemma StaleTimerAfterReset(s0: Session, a: seq<int>)
    requires Fresh(s0)
    requires |a| == QuestionCount
    requires forall k :: 0 <= k < QuestionCount ==> 0 <= a[k] < OptionCount
    ensures var s := RunAsWritten(s0,
      [StartEv, AnswerEv(a[0]), AnswerEv(a[1]), AnswerEv(a[2]), AnswerEv(a[3]), ResetEv, AnalyzeDoneEv]);
      s.step == Result && s.answers == [] && s.score == 0 && Finish(s) == "A2 (Elementary)" && !Inv(s)
  {
    StaleTimerRun(s0, a);
    EmptyResultReport();
  }

  /** The stale run ends in the result step with nothing answered. */
  lemma StaleTimerRun(s0: Session, a: seq<int>)
    requires Fresh(s0)
    requires |a| == QuestionCount
    requires forall k :: 0 <= k < QuestionCount ==> 0 <= a[k] < OptionCount
    ensures RunAsWritten(s0,
      [StartEv, AnswerEv(a[0]), AnswerEv(a[1]), AnswerEv(a[2]), AnswerEv(a[3]), ResetEv, AnalyzeDoneEv])
      == Session(Result, 0, [], 0, 0)
  {
    var pre := [StartEv, AnswerEv(a[0]), AnswerEv(a[1]), AnswerEv(a[2]), AnswerEv(a[3])];
    var s6 := Session(Intro, 0, [], 0, 1);
    assert RunAsWritten(s0, pre) == Session(Analyzing, LastIndex, a, CorrectCount(a), 1) by {
      FourAnswers(s0, a);
      AsWrittenAgrees(s0, pre);
    }
    assert RunAsWritten(s0, pre + [ResetEv]) == s6 by {
      RunAsWrittenSnoc(s0, pre, ResetEv);
    }
    assert RunAsWritten(s0, pre + [ResetEv] + [AnalyzeDoneEv]) == Session(Result, 0, [], 0, 0) by {
      RunAsWrittenSnoc(s0, pre + [ResetEv], AnalyzeDoneEv);
    }
    assert pre + [ResetEv] + [AnalyzeDoneEv]
      == [StartEv, AnswerEv(a[0]), AnswerEv(a[1]), AnswerEv(a[2]), AnswerEv(a[3]), ResetEv, AnalyzeDoneEv];
  }

  /** A result step with nothing answered reports the lowest tier and is
      outside the invariant, which asks for four answers there. */
  lemma EmptyResultReport()
    ensures var s := Session(Result, 0, [], 0, 0);
      Finish(s) == "A2 (Elementary)" && !Inv(s)
  {
    TierTable();
  }

  /** Four answers and the end of the analysis, for any answers. */
  lemma FourAnswersDone(s0: Session, a: seq<int>)
    requires Fresh(s0)
    requires |a| == QuestionCount
    requires forall k :: 0 <= k < QuestionCount ==> 0 <= a[k] < OptionCount
    ensures Run(s0, [StartEv, AnswerEv(a[0]), AnswerEv(a[1]), AnswerEv(a[2]), AnswerEv(a[3]), AnalyzeDoneEv])
      == Session(Result, LastIndex, a, CorrectCount(a), 0)
  {
    var pre := [StartEv, AnswerEv(a[0]), AnswerEv(a[1]), AnswerEv(a[2]), AnswerEv(a[3])];
    FourAnswers(s0, a);
    RunSnoc(s0, pre, AnalyzeDoneEv);
    assert pre + [AnalyzeDoneEv] == [StartEv, AnswerEv(a[0]), AnswerEv(a[1]), AnswerEv(a[2]), AnswerEv(a[3]), AnalyzeDoneEv];
  }

  /** The score of a full answer sheet, question by question. */
  lemma CountOfFour(a: seq<int>)
    requires |a| == QuestionCount
    ensures CorrectCount(a) ==
      (if a[0] == AnswerKey[0] then 1 else 0) + (if a[1] == AnswerKey[1] then 1 else 0)
      + (if a[2] == AnswerKey[2] then 1 else 0) + (if a[3] == AnswerKey[3] then 1 else 0)
  {
    assert CorrectCount(a[..1]) == (if a[0] == AnswerKey[0] then 1 else 0) by {
      assert a[..1][..0] == [];
    }
    assert CorrectCount(a[..2]) == CorrectCount(a[..1]) + (if a[1] == AnswerKey[1] then 1 else 0) by {
      assert a[..2][..1] == a[..1];
    }
    assert CorrectCount(a[..3]) == CorrectCount(a[..2]) + (if a[2] == AnswerKey[2] then 1 else 0) by {
      assert a[..3][..2] == a[..2];
    }
    assert a[..3] == a[..|a| - 1];
  }

  /** Answering the first two questions right and the last two wrong gives
      the middle tier, whatever the wrong options are. */
  lemma ScenarioTwoCorrect(s0: Session, a: seq<int>)
    requires Fresh(s0)
    requires |a| == QuestionCount
    requires forall k :: 0 <= k < QuestionCount ==> 0 <= a[k] < OptionCount
    requires a[0] == AnswerKey[0] && a[1] == AnswerKey[1] && a[2] != AnswerKey[2] && a[3] != AnswerKey[3]
    ensures var s := Run(s0, [StartEv, AnswerEv(a[0]), AnswerEv(a[1]), AnswerEv(a[2]), AnswerEv(a[3]), AnalyzeDoneEv]);
      s.step == Result && s.score == 2 && Finish(s) == "B1 (Intermediate)"
  {
    CountOfFour(a);
    FourAnswersDone(s0, a);
    TierTable();
  }

  /** Four wrong answers give the lowest tier. */
  lemma ScenarioAllWrong(s0: Session, a: seq<int>)
    requires Fresh(s0)
    requires |a| == QuestionCount
    requires forall k :: 0 <= k < QuestionCount ==> 0 <= a[k] < OptionCount && a[k] != AnswerKey[k]
    ensures var s := Run(s0, [StartEv, AnswerEv(a[0]), AnswerEv(a[1]), AnswerEv(a[2]), AnswerEv(a[3]), AnalyzeDoneEv]);
      s.step == Result && s.score == 0 && Finish(s) == "A2 (Elementary)"
  {
    CountOfFour(a);
    FourAnswersDone(s0, a);
    TierTable();
  }

  lemma {:induction false} RunSnoc(s: Session, evs: seq<Event>, e: Event)
    ensures Run(s, evs + [e]) == Apply(Run(s, evs), e)
    decreases |evs|
  {
    if evs == [] {
      assert [e][1..] == [];
    } else {
      assert (evs + [e])[1..] == evs[1..] + [e];
      RunSnoc(Apply(s, evs[0]), evs[1..], e);
    }
  }

  lemma {:induction false} RunAsWrittenSnoc(s: Session, evs: seq<Event>, e: Event)
    ensures RunAsWritten(s, evs + [e]) == ApplyAsWritten(RunAsWritten(s, evs), e)
    decreases |evs|
  {
    if evs == [] {
      assert [e][1..] == [];
    } else {
      assert (evs + [e])[1..] == evs[1..] + [e];
      RunAsWrittenSnoc(ApplyAsWritten(s, evs[0]), evs[1..], e);
    }
  }

  /** Without a close, the as-written machine runs exactly as the corrected one. */
  lemma {:induction false} AsWrittenAgrees(s: Session, evs: seq<Event>)
    requires forall i :: 0 <= i < |evs| ==> evs[i] != ResetEv
    ensures RunAsWritten(s, evs) == Run(s, evs)
    decreases |evs|
  {
    if evs != [] {
      AsWrittenAgrees(Apply(s, evs[0]), evs[1..]);
    }
  }

  /** Start from a fresh session. */
  lemma StartStep(s: Session)
    requires Fresh(s)
    ensures Apply(s, StartEv) == Session(Question, 0, [], 0, 0)
  {
  }

  /** An answer to a question that is not the last, from a session whose
      score counts its correct answers. */
  lemma AnswerStep(s: Session, o: int)
    requires s.step == Question && 0 <= s.index < LastIndex && 0 <= o < OptionCount
    requires |s.answers| == s.index && s.score == CorrectCount(s.answers)
    ensures Apply(s, AnswerEv(o)) ==
      Session(Question, s.index + 1, s.answers + [o], CorrectCount(s.answers + [o]), s.pendingAnalyze)
  {
    AnswerCounts(s, o);
  }

  /** An answer to the last question. */
  lemma LastAnswerStep(s: Session, o: int)
    requires s.step == Question && s.index == LastIndex && 0 <= o < OptionCount
    requires |s.answers| == s.index && s.score == CorrectCount(s.answers)
    ensures Apply(s, AnswerEv(o)) ==
      Session(Analyzing, s.index, s.answers + [o], CorrectCount(s.answers + [o]), s.pendingAnalyze + 1)
  {
    AnswerCounts(s, o);
  }

  /** From a fresh session, starting and answering the four questions with
      any options leaves the modal analyzing those answers with their count
      of correct ones, and one timer pending. */
  lemma {:induction false} FourAnswers(s0: Session, a: seq<int>)
    requires Fresh(s0)
    requires |a| == QuestionCount && forall i :: 0 <= i < |a| ==> 0 <= a[i] < OptionCount
    ensures Run(s0, [StartEv, AnswerEv(a[0]), AnswerEv(a[1]), AnswerEv(a[2]), AnswerEv(a[3])])
      == Session(Analyzing, LastIndex, a, CorrectCount(a), 1)
  {
    FourAnswerSteps(s0, a);
    RunFive(s0, StartEv, AnswerEv(a[0]), AnswerEv(a[1]), AnswerEv(a[2]), AnswerEv(a[3]));
  }

  /** The same five events as single steps. */
  lemma FourAnswerSteps(s0: Session, a: seq<int>)
    requires Fresh(s0)
    requires |a| == QuestionCount && forall i :: 0 <= i < |a| ==> 0 <= a[i] < OptionCount
    ensures Apply(Apply(Apply(Apply(Apply(s0, StartEv), AnswerEv(a[0])), AnswerEv(a[1])), AnswerEv(a[2])), AnswerEv(a[3]))
      == Session(Analyzing, LastIndex, a, CorrectCount(a), 1)
  {
    FirstTwoSteps(s0, a);
    LastTwoSteps(a);
  }

  lemma FirstTwoSteps(s0: Session, a: seq<int>)
    requires Fresh(s0)
    requires |a| == QuestionCount && forall i :: 0 <= i < |a| ==> 0 <= a[i] < OptionCount
    ensures Apply(Apply(Apply(s0, StartEv), AnswerEv(a[0])), AnswerEv(a[1]))
      == Session(Question, 2, a[..2], CorrectCount(a[..2]), 0)
  {
    StartStep(s0);
    NthAnswerStep(a, 0);
    NthAnswerStep(a, 1);
  }

  lemma LastTwoSteps(a: seq<int>)
    requires |a| == QuestionCount && forall i :: 0 <= i < |a| ==> 0 <= a[i] < OptionCount
    ensures var s3 := Session(Question, 2, a[..2], CorrectCount(a[..2]), 0);
      Apply(Apply(s3, AnswerEv(a[2])), AnswerEv(a[3])) == Session(Analyzing, LastIndex, a, CorrectCount(a), 1)
  {
    NthAnswerStep(a, 2);
    var s4 := Session(Question, 3, a[..3], CorrectCount(a[..3]), 0);
    LastAnswerStep(s4, a[3]);
    assert a[..3] + [a[3]] == a;
  }

  /** The answer to question `k` of a sheet, before the last question. */
  lemma NthAnswerStep(a: seq<int>, k: int)
    requires |a| == QuestionCount && 0 <= k < LastIndex && 0 <= a[k] < OptionCount
    ensures Apply(Session(Question, k, a[..k], CorrectCount(a[..k]), 0), AnswerEv(a[k]))
      == Session(Question, k + 1, a[..k + 1], CorrectCount(a[..k + 1]), 0)
  {
    AnswerStep(Session(Question, k, a[..k], CorrectCount(a[..k]), 0), a[k]);
    assert a[..k] + [a[k]] == a[..k + 1];
  }

  /** A run of five events is five single steps. */
  lemma RunFive(s: Session, e0: Event, e1: Event, e2: Event, e3: Event, e4: Event)
    ensures Run(s, [e0, e1, e2, e3, e4]) == Apply(Apply(Apply(Apply(Apply(s, e0), e1), e2), e3), e4)
  {
    var evs := [e0, e1, e2, e3, e4];
    RunStep(s, evs);
    RunStep(Apply(s, e0), evs[1..]);
    RunStep(Apply(Apply(s, e0), e1), evs[2..]);
    RunStep(Apply(Apply(Apply(s, e0), e1), e2), evs[3..]);
    RunStep(Apply(Apply(Apply(Apply(s, e0), e1), e2), e3), evs[4..]);
    assert evs[1..][1..] == evs[2..] && evs[2..][1..] == evs[3..] && evs[3..][1..] == evs[4..];
    assert evs[4..][1..] == [];
  }

  /** One step of a run. */
  lemma RunStep(s: Session, evs: seq<Event>)
    requires evs != []
    ensures Run(s, evs) == Run(Apply(s, evs[0]), evs[1..])
  {
  }
}

=== FILE: vocab_demo.dfy ===
/** The five-word demo of `components/VocabularyDemoModal.tsx`: a click
    counter capped at the word count, guarded by the active word, whose check
    marks are a prefix of the list. */
module VocabDemo {
  import opened Optional

  const Words: seq<string> := ["Resilient", "Inevitably", "Profound", "Alleviate", "Endeavor"]
  const WordCount: int := |Words|

  datatype Demo = Demo(learnedCount: int, activeWord: Option<int>)

  const Initial: Demo := Demo(0, None)

  function Min(a: int, b: int): int {
    if a <= b then a else b
  }

  /** `handleWordClick`. */
  function WordClick(d: Demo, index: int): (r: Demo)
    ensures d.activeWord == Some(index) ==> r == d
    ensures d.activeWord != Some(index) ==> r.activeWord == Some(index)
    ensures 0 <= d.learnedCount <= WordCount && d.activeWord != Some(index) ==>
      r.learnedCount == Min(d.learnedCount + 1, WordCount)
    ensures d.learnedCount <= r.learnedCount <= d.learnedCount + 1
  {
    if d.activeWord == Some(index) then d
    else
      var count := if d.learnedCount < WordCount then Min(d.learnedCount + 1, WordCount) else d.learnedCount;
      d.(activeWord := Some(index), learnedCount := count)
  }

  /** `isChecked` for the word at `idx`. */
  predicate IsChecked(d: Demo, idx: int) {
    idx < d.learnedCount
  }

  /** `isComplete`: with the counter in range, the demo is complete exactly
      when every word shows its check mark. */
  function IsComplete(d: Demo): (c: bool)
    ensures c ==> forall i :: 0 <= i < WordCount ==> IsChecked(d, i)
    ensures !c && d.learnedCount <= WordCount ==> !IsChecked(d, WordCount - 1)
  {
    d.learnedCount == WordCount
  }

  /** The checked words form a prefix of the list. */
  lemma CheckedPrefix(d: Demo, i: int, j: int)
    requires 0 <= i <= j < WordCount
    ensures IsChecked(d, j) ==> IsChecked(d, i)
    ensures IsComplete(d) ==> IsChecked(d, j)
  {
  }

  datatype Mode = DemoMode | UserMode

  datatype Callback = OnSignup | OnComplete | NoCallback

  /** `handleAction`: the callback matching the mode, if it was supplied. */
  function HandleAction(mode: Mode, hasSignup: bool, hasComplete: bool): (c: Callback)
    ensures c == OnSignup <==> mode == DemoMode && hasSignup
    ensures c == OnComplete <==> mode == UserMode && hasComplete
  {
    if mode == DemoMode && hasSignup then OnSignup
    else if mode == UserMode && hasComplete then OnComplete
    else NoCallback
  }

  /** The action button: it is disabled until all words are learned. */
  function ActionButton(d: Demo, mode: Mode, hasSignup: bool, hasComplete: bool): (c: Callback)
    ensures !IsComplete(d) ==> c == NoCallback
    ensures IsComplete(d) ==> (c == OnSignup <==> mode == DemoMode && hasSignup)
    ensures IsComplete(d) ==> (c == OnComplete <==> mode == UserMode && hasComplete)
  {
    if IsComplete(d) then HandleAction(mode, hasSignup, hasComplete) else NoCallback
  }

  /** Word clicks; only the five rendered words can be clicked. */
  function Run(d: Demo, clicks: seq<int>): Demo
    decreases |clicks|
  {
    if clicks == [] then d
    else if 0 <= clicks[0] < WordCount then Run(WordClick(d, clicks[0]), clicks[1..])
    else Run(d, clicks[1..])
  }

  /** Over any clicks the counter stays in [0, 5] and never decreases. */
  lemma {:induction false} RunBounds(d: Demo, clicks: seq<int>)
    requires 0 <= d.learnedCount <= WordCount
    ensures d.learnedCount <= Run(d, clicks).learnedCount <= WordCount
    decreases |clicks|
  {
    if clicks != [] {
      var d' := if 0 <= clicks[0] < WordCount then WordClick(d, clicks[0]) else d;
      RunBounds(d', clicks[1..]);
    }
  }

  /** Clicks on words, each different from the word active before it. */
  predicate Switching(active: Option<int>, clicks: seq<int>) {
    (forall i :: 0 <= i < |clicks| ==> 0 <= clicks[i] < WordCount)
    && (|clicks| > 0 ==> active != Some(clicks[0]))
    && (forall i :: 0 < i < |clicks| ==> clicks[i - 1] != clicks[i])
  }

  /** Every switching click counts once, whichever words are clicked. */
  lemma {:induction false} SwitchingCount(d: Demo, clicks: seq<int>)
    requires 0 <= d.learnedCount <= WordCount
    requires Switching(d.activeWord, clicks)
    ensures Run(d, clicks).learnedCount == Min(d.learnedCount + |clicks|, WordCount)
    decreases |clicks|
  {
    if clicks != [] {
      var d' := WordClick(d, clicks[0]);
      assert Switching(d'.activeWord, clicks[1..]) by {
        forall i | 0 < i < |clicks[1..]| ensures clicks[1..][i - 1] != clicks[1..][i] {
          assert clicks[1..][i - 1] == clicks[i] && clicks[1..][i] == clicks[i + 1];
        }
      }
      SwitchingCount(d', clicks[1..]);
    }
  }

  /** The marks depend only on how many switching clicks there were: two
      different click sequences of the same length check the same words. */
  lemma SameMarks(a: seq<int>, b: seq<int>, idx: int)
    requires Switching(None, a) && Switching(None, b) && |a| == |b|
    ensures IsChecked(Run(Initial, a), idx) <==> IsChecked(Run(Initial, b), idx)
  {
    SwitchingCount(Initial, a);
    SwitchingCount(Initial, b);
  }

  /** From the opened demo, the sign-up button works exactly after five
      switching clicks; before that it gives no callback. */
  lemma ButtonAfterFiveSwitches(clicks: seq<int>, hasComplete: bool)
    requires Switching(None, clicks)
    ensures |clicks| >= WordCount ==> ActionButton(Run(Initial, clicks), DemoMode, true, hasComplete) == OnSignup
    ensures |clicks| < WordCount ==> ActionButton(Run(Initial, clicks), DemoMode, true, hasComplete) == NoCallback
  {
    SwitchingCount(Initial, clicks);
  }

  /** Going back and forth between two words completes the demo. */
  lemma AlternatingCompletes()
    ensures IsComplete(Run(Initial, [0, 1, 0, 1, 0]))
  {
  }

  /** Clicking the last word once checks the first word, not the last. */
  lemma CheckIsNotThePickedWord()
    ensures var d := Run(Initial, [4]);
      IsChecked(d, 0) && !IsChecked(d, 4) && d.activeWord == Some(4)
  {
  }

  /** Re-clicking the active word changes nothing, however often. */
  lemma RepeatedClickCountsOnce()
    ensures Run(Initial, [2, 2, 2, 2, 2]).learnedCount == 1
  {
  }
}
